=== FILE: README.md ===
# FieldTrip buffer client in Dafny

This project models the client side of the FieldTrip realtime buffer protocol, as `UnityBuffer` implements it. The model covers:

- the byte frames the client writes;
- how it reads and checks the server's response frames;
- the GET_DAT descriptor check;
- the PUT_DAT size checks and per-overload type tags;
- the five typed getters;
- the connect/reconnect/isConnected state.

Everything is written as pure functions over immutable values.

- `bytes.dfy` (module `Bytes`) holds fixed-width two's-complement encoding in either byte order and C#'s 32-bit `int` wrap-around.
- `protocol.dfy` (module `Protocol`) holds:
  - the protocol constants;
  - the data-type tags and word sizes;
  - the 8-byte envelope (`version`, `command`, body `size`);
  - the 16-byte data descriptor;
  - `readAll`/`readResponse`.
- `marshal.dfy` (module `Marshal`) holds:
  - the `T[rows, cols]` matrices;
  - `getRow`;
  - the typed getters' dispatch on the stored kind;
  - the row-by-row packing done by `putData`.
- `client.dfy` (module `BufferClient`) holds the client state and every public operation. It also holds end-to-end lemmas that feed a server response into an operation.

The socket is replaced by two fields of the client:

- `sent`: the request frames written so far;
- `incoming`: the bytes the server will still deliver.

Each operation returns the new client together with a value, or the exception it throws (`Result`). The client's `errorReturned` field is the client's `lastError`.

32-bit arithmetic is modelled by wrapping it explicitly (`Wrap32`, `Mul32`), not by adding no-overflow preconditions. This covers `nChans*nSamples*wordSize`, `8+bufsize` and `24+bufsize`. The lemma `SizesAgreeWraps` shows that the wrap is observable: a 65536 x 65536 INT8 descriptor passes the size rule with no payload.

Behaviour of the source that the model keeps as written:

- `connect` records `host` and `port` (UnityBuffer.cs:63-64) before it calls `sockChan.connect` (UnityBuffer.cs:65). `reconnect` therefore replays the last endpoint tried, whether or not that attempt succeeded (`ReconnectReplaysEndpoint`).
- The default endpoint is `"127.0.0.1"` port 1992 (UnityBuffer.cs:41-42).
- The getters accept exactly these stored kinds:
  - `getShortData`: INT8 and INT16 (UnityBuffer.cs:144-161);
  - `getIntData`: INT8, INT16 and INT32 (UnityBuffer.cs:176-200);
  - `getLongData`: INT8, INT16, INT32 and INT64 (UnityBuffer.cs:215-246);
  - `getFloatData`: INT8, INT16, INT32, FLOAT32 and FLOAT64, so INT64 is rejected (UnityBuffer.cs:261-298);
  - `getDoubleData`: all six kinds (UnityBuffer.cs:313-359).
- `disconnect` calls `sockChan.close()` without checking for a socket (UnityBuffer.cs:77). With no socket it throws, which the model reports as `NoSocket`.
- When a response's command is not the expected one, `readResponse` only records BUFFER_READ_ERROR and still returns the body (UnityBuffer.cs:604-607).

## Model

All source paths are in `Unity2/Assets/Scripts/RealtimeBuffer/UnityBuffer.cs`.

| member | source | states |
|---|---|---|
| Bytes.DecodeEncode | Unity2/Assets/Scripts/RealtimeBuffer/UnityBuffer.cs:96-98 | reading back an n-byte field written with any value gives that value wrapped to n bytes two's complement, in either byte order |
| Bytes.RoundTrip | Unity2/Assets/Scripts/RealtimeBuffer/UnityBuffer.cs:598-612 | every value that fits an n-byte field is read back unchanged |
| Bytes.EncodeDecode | Unity2/Assets/Scripts/RealtimeBuffer/UnityBuffer.cs:384-387 | every n-byte field is the encoding of the value it decodes to (the inverse direction) |
| Bytes.RoundTrip16 | Unity2/Assets/Scripts/RealtimeBuffer/UnityBuffer.cs:598-599 | `putShort` followed by `getShort` is the identity on 16-bit values |
| Bytes.RoundTrip32 | Unity2/Assets/Scripts/RealtimeBuffer/UnityBuffer.cs:612 | `putInt` followed by `getInt` is the identity on 32-bit values |
| Bytes.Wrap32Overflow | Unity2/Assets/Scripts/RealtimeBuffer/UnityBuffer.cs:635 | a 32-bit sum or product just past INT32_MAX becomes negative |
| Bytes.Mul32Chain | Unity2/Assets/Scripts/RealtimeBuffer/UnityBuffer.cs:389 | two chained 32-bit multiplications wrap the exact product only once |
| Bytes.Mul32Rotate | Unity2/Assets/Scripts/RealtimeBuffer/UnityBuffer.cs:635 | `wordSize*nSamples*nChans` (preparePutData) and `nSamples*nChans*wordSize` (putRawData) give the same 32-bit value |
| Protocol.KindOfTag | Unity2/Assets/Scripts/RealtimeBuffer/UnityBuffer.cs:389 | a wire tag indexes the six-entry word-size table exactly when it is in 0..5 |
| Protocol.EncodeEnvelope | Unity2/Assets/Scripts/RealtimeBuffer/UnityBuffer.cs:96-98 | the envelope is 8 bytes, and decoding it gives back version, command and size |
| Protocol.EmptyRequest | Unity2/Assets/Scripts/RealtimeBuffer/UnityBuffer.cs:93-98 | GET_HDR and the flush requests are 8 bytes: VERSION, the command, body length 0 |
| Protocol.GetDataRequest | Unity2/Assets/Scripts/RealtimeBuffer/UnityBuffer.cs:374-378 | the GET_DAT request is 16 bytes: VERSION, 0x202, length 8, then `first` and `last` |
| Protocol.DescriptorRoundTrip | Unity2/Assets/Scripts/RealtimeBuffer/UnityBuffer.cs:384-387 | the four descriptor ints read from a body are the four written at its front, whatever follows |
| Protocol.ReadAll | Unity2/Assets/Scripts/RealtimeBuffer/UnityBuffer.cs:572-584 | a read of n bytes takes min(n, available) bytes into a zero-filled n-byte buffer and leaves the rest unread |
| Protocol.ReadResponse | Unity2/Assets/Scripts/RealtimeBuffer/UnityBuffer.cs:588-619 | the recorded code is always one of NO_ERROR, BUFFER_READ_ERROR or VERSION_ERROR; nothing arriving throws with BUFFER_READ_ERROR; a returned body never comes with VERSION_ERROR; only a prefix of the input is consumed |
| Protocol.Answer | Unity2/Assets/Scripts/RealtimeBuffer/UnityBuffer.cs:598-618 | after the envelope: the call throws BadVersion exactly when the version is foreign, and then records VERSION_ERROR and leaves the body unread; otherwise the recorded code is NO_ERROR exactly when the command is the expected one, a non-negative size yields the body read from the stream, and a negative size throws CapacityError with that code recorded and nothing more read |
| Protocol.ReadEnvelope | Unity2/Assets/Scripts/RealtimeBuffer/UnityBuffer.cs:589-599 | a complete envelope at the front of the input is read whole and decoded to what was encoded |
| Protocol.ReadResponseOfFrame | Unity2/Assets/Scripts/RealtimeBuffer/UnityBuffer.cs:598-618 | for every complete frame the three-way outcome holds: VERSION_ERROR and no body; BUFFER_READ_ERROR with the body; NO_ERROR with the body; the body has exactly the declared length |
| Protocol.ReadResponseShortBody | Unity2/Assets/Scripts/RealtimeBuffer/UnityBuffer.cs:612-618 | a body cut short by the server is returned zero-filled up to the declared size |
| Marshal.GetRow | Unity2/Assets/Scripts/RealtimeBuffer/UnityBuffer.cs:646-652 | the copy has `GetLength(1)` elements |
| Marshal.GetRowAt | Unity2/Assets/Scripts/RealtimeBuffer/UnityBuffer.cs:646-652 | element j of the copy is element [index, j] of the matrix |
| Marshal.RowMajorPlacement | Unity2/Assets/Scripts/RealtimeBuffer/UnityBuffer.cs:178-182 | stream element k belongs at [k / nChans, k % nChans], which is inside the matrix |
| Marshal.WordAt | Unity2/Assets/Scripts/RealtimeBuffer/UnityBuffer.cs:231-235 | the k-th sequential read of a ws-byte word takes bytes k*ws up to (k+1)*ws |
| Marshal.IntElementsDecoded | Unity2/Assets/Scripts/RealtimeBuffer/UnityBuffer.cs:184-189 | the element-wise loop fails exactly when the payload is short; otherwise [i, j] is the signed value of sample i*nChans + j |
| Marshal.RealElementsDecoded | Unity2/Assets/Scripts/RealtimeBuffer/UnityBuffer.cs:283-289 | the floating-point element-wise loop fails exactly when the payload is short; otherwise [i, j] is the conversion of sample i*nChans + j |
| Marshal.CopiedRowsIntDecoded | Unity2/Assets/Scripts/RealtimeBuffer/UnityBuffer.cs:191-197 | the integer row loop throws an underflow exactly when the payload is short; otherwise the matrix it returns holds only zeros |
| Marshal.CopiedRowsRealDecoded | Unity2/Assets/Scripts/RealtimeBuffer/UnityBuffer.cs:350-356 | the double row loop throws an underflow exactly when the payload is short; otherwise the matrix it returns holds only zeros |
| Marshal.FilledAt | Unity2/Assets/Scripts/RealtimeBuffer/UnityBuffer.cs:174 | every element of a freshly allocated matrix is the default zero |
| Marshal.ShortData | Unity2/Assets/Scripts/RealtimeBuffer/UnityBuffer.cs:135-165 | a negative dimension throws, then only INT8 and INT16 are accepted, then a short payload throws; otherwise INT8 is decoded element-wise and INT16 yields zeros |
| Marshal.IntData | Unity2/Assets/Scripts/RealtimeBuffer/UnityBuffer.cs:167-204 | accepts only INT8, INT16 and INT32; INT32 yields zeros; the others are decoded element-wise; the same error order as ShortData |
| Marshal.LongData | Unity2/Assets/Scripts/RealtimeBuffer/UnityBuffer.cs:206-250 | accepts only INT8 to INT64; INT64 yields zeros; the others are decoded element-wise |
| Marshal.FloatData | Unity2/Assets/Scripts/RealtimeBuffer/UnityBuffer.cs:252-302 | accepts every kind but INT64, including FLOAT64; every accepted kind is converted element-wise |
| Marshal.DoubleData | Unity2/Assets/Scripts/RealtimeBuffer/UnityBuffer.cs:304-363 | accepts all six kinds; FLOAT64 yields zeros; the others are converted element-wise |
| Marshal.KindOf | Unity2/Assets/Scripts/RealtimeBuffer/UnityBuffer.cs:425 | each overload's tag has the word size of its C# element type |
| Marshal.PackCellsLength | Unity2/Assets/Scripts/RealtimeBuffer/UnityBuffer.cs:635 | packing n elements of ws bytes gives n*ws bytes |
| Marshal.PackRowsRowMajor | Unity2/Assets/Scripts/RealtimeBuffer/UnityBuffer.cs:465-468 | packing the `getRow` copies of the first n rows packs the first n*nChans cells in row-major order |
| Marshal.PackedWords | Unity2/Assets/Scripts/RealtimeBuffer/UnityBuffer.cs:467 | word k of a packed sequence is the encoding of element k |
| Marshal.EchoPayload | Unity2/Assets/Scripts/RealtimeBuffer/UnityBuffer.cs:463-468 | the payload `putData` writes is the matrix's cells packed in row-major order, |cells|*wordSize bytes |
| Marshal.ElementWiseRoundTrip | Unity2/Assets/Scripts/RealtimeBuffer/UnityBuffer.cs:230-235 | reading a packed integer matrix back element-wise gives each element wrapped to its kind's width, in the same shape |
| Marshal.ElementWiseExact | Unity2/Assets/Scripts/RealtimeBuffer/UnityBuffer.cs:230-235 | for short, int and long matrices, the element-wise read-back is the matrix itself |
| Marshal.ByteReadBackSigned | Unity2/Assets/Scripts/RealtimeBuffer/UnityBuffer.cs:216-221 | an unsigned C# byte of 200 comes back as -56 through the signed INT8 kind |
| Marshal.ReadBackAfterPut | Unity2/Assets/Scripts/RealtimeBuffer/UnityBuffer.cs:191-197 | after putData of a short, int or long matrix: a wider getter returns the matrix; the same-kind getter returns zeros; a narrower one throws NotSupported |
| Marshal.RowCopyLosesData | Unity2/Assets/Scripts/RealtimeBuffer/UnityBuffer.cs:191-197 | one INT32 sample of value 7 is read back by `getIntData` as 0 |
| Marshal.FillRowsIntended | Unity2/Assets/Scripts/RealtimeBuffer/UnityBuffer.cs:191-197 | a row loop that stores each row back into the matrix returns exactly the element-wise reading |
| BufferClient.NewClient | Unity2/Assets/Scripts/RealtimeBuffer/UnityBuffer.cs:38-49 | a new client has no socket at all (not merely an unconnected one) and so no stream, is not connected, has sent nothing, and has endpoint 127.0.0.1:1992 |
| BufferClient.IsConnected | Unity2/Assets/Scripts/RealtimeBuffer/UnityBuffer.cs:81-87 | true exactly when a socket exists and is connected; false without a socket |
| BufferClient.Connect | Unity2/Assets/Scripts/RealtimeBuffer/UnityBuffer.cs:51-69 | the endpoint is recorded whatever the outcome; a socket is always left behind, connected exactly when the attempt was accepted, and that state is the result; the attempt opens a new connection, so bytes left unread on the previous one are dropped for the new stream; nothing else changes |
| BufferClient.Reconnect | Unity2/Assets/Scripts/RealtimeBuffer/UnityBuffer.cs:71-73 | connects again to the recorded endpoint: only the socket and the stream change; the socket is left connected exactly when the attempt was accepted, and the stream is the new connection's |
| BufferClient.Disconnect | Unity2/Assets/Scripts/RealtimeBuffer/UnityBuffer.cs:75-79 | throws exactly when there is no socket; otherwise the socket stays, closed; afterwards the client is not connected and nothing else changes |
| BufferClient.ReconnectReplaysEndpoint | Unity2/Assets/Scripts/RealtimeBuffer/UnityBuffer.cs:63-72 | after a failed connect, reconnect retries the endpoint of that failed attempt |
| BufferClient.Exchange | Unity2/Assets/Scripts/RealtimeBuffer/UnityBuffer.cs:622-630 | without a socket the write throws and nothing changes; otherwise the frame is sent; on an unconnected socket nothing is read and BUFFER_READ_ERROR is recorded; VERSION_ERROR always comes with an exception |
| BufferClient.ExchangeOnFrame | Unity2/Assets/Scripts/RealtimeBuffer/UnityBuffer.cs:588-619 | on a connected socket, a complete response frame gives the three-way outcome and consumes exactly that frame |
| BufferClient.GetHeader | Unity2/Assets/Scripts/RealtimeBuffer/UnityBuffer.cs:89-114 | sends GET_HDR; a returned header is the one stored; any recorded code other than NO_ERROR gives the degenerate header; a throw leaves the stored header alone |
| BufferClient.GetHeaderOnResponse | Unity2/Assets/Scripts/RealtimeBuffer/UnityBuffer.cs:100-112 | for every complete response: a foreign version throws with the body unread; a foreign command stores Header(0,0,0); GET_OK stores the parsed body |
| BufferClient.HeaderFrame | Unity2/Assets/Scripts/RealtimeBuffer/UnityBuffer.cs:119-126 | the PUT_HDR frame is 8 + serial-size bytes, envelope then serialized header, and exists exactly when the 32-bit capacity does not wrap |
| BufferClient.Capacity | Unity2/Assets/Scripts/RealtimeBuffer/UnityBuffer.cs:637 | the 32-bit capacity `head + size` is at least `head` exactly when the frame fits, and negative when it does not |
| BufferClient.PutHeader | Unity2/Assets/Scripts/RealtimeBuffer/UnityBuffer.cs:117-133 | sends the PUT_HDR frame and reports `channelNameSize > nChans`; an unallocatable frame throws before anything is sent; otherwise it fails exactly when its exchange (write and `readResponse`) fails, and leaves the client that exchange leaves |
| BufferClient.PutHeaderOnResponse | Unity2/Assets/Scripts/RealtimeBuffer/UnityBuffer.cs:127-132 | for every complete reply: a foreign version throws with VERSION_ERROR recorded and the body unread; any other reply completes putHeader whatever its command, with NO_ERROR recorded exactly when it answers PUT_OK |
| BufferClient.RequestData | Unity2/Assets/Scripts/RealtimeBuffer/UnityBuffer.cs:372-395 | sends GET_DAT; INVALID_SIZE_DATA_DEF_ERROR is recorded exactly when the size check throws; a failed exchange (no socket, nothing received, foreign version) ends the call with its fault; a returned descriptor names a known kind and passes the size rule |
| BufferClient.GetRawData | Unity2/Assets/Scripts/RealtimeBuffer/UnityBuffer.cs:366-396 | whatever is returned passes the size rule and names a known kind |
| BufferClient.RequestDataOnFrame | Unity2/Assets/Scripts/RealtimeBuffer/UnityBuffer.cs:379-395 | for every complete response: a foreign version throws with the body unread; a body shorter than the 16-byte descriptor underflows; a tag outside the type table throws; otherwise the descriptor and the bytes after it are returned exactly when the size rule holds, and INVALID_SIZE_DATA_DEF_ERROR is recorded when it does not |
| BufferClient.RequestDataOnResponse | Unity2/Assets/Scripts/RealtimeBuffer/UnityBuffer.cs:379-395 | for every complete response whose body is a descriptor and a payload, of any version and tag: a foreign version throws, an unknown tag throws, otherwise the written descriptor and the payload are returned exactly when the size rule holds |
| BufferClient.GetRawDataFetchesHeader | Unity2/Assets/Scripts/RealtimeBuffer/UnityBuffer.cs:368-370 | without a usable header, GET_HDR is exchanged first and GET_DAT runs on the client it leaves |
| BufferClient.SizesAgreeSuffices | Unity2/Assets/Scripts/RealtimeBuffer/UnityBuffer.cs:389-390 | when the 32-bit product does not wrap, the size rule guarantees the getters enough bytes |
| BufferClient.SizesAgreeWraps | Unity2/Assets/Scripts/RealtimeBuffer/UnityBuffer.cs:389 | when the product wraps, the size rule accepts a descriptor whose samples are missing |
| BufferClient.DataFrame | Unity2/Assets/Scripts/RealtimeBuffer/UnityBuffer.cs:634-642 | the PUT_DAT frame is 24 + bufsize bytes: body length 16 + bufsize, then the descriptor nChans, nSamples, type, bufsize (decoded back), then the payload |
| BufferClient.PutDataFrame | Unity2/Assets/Scripts/RealtimeBuffer/UnityBuffer.cs:634-642 | the frame exists exactly when the 32-bit bufsize is non-negative, leaves room for the header and holds the payload; otherwise the call throws |
| BufferClient.PutRawData | Unity2/Assets/Scripts/RealtimeBuffer/UnityBuffer.cs:401-417 | an empty dimension returns before any check; an unknown tag throws; BUFFER_NOT_MATCH_DESCRIPTION_ERROR is recorded exactly when the length differs from the 32-bit product; a frame is sent only when every check passes, and on a socket it is then sent exactly once |
| BufferClient.PutRawDataOnResponse | Unity2/Assets/Scripts/RealtimeBuffer/UnityBuffer.cs:401-417 | when every check passes the PUT_DAT frame is sent and the reply consumed: a foreign version throws and leaves the body unread; any other reply completes the call, with NO_ERROR recorded exactly when it answers PUT_OK |
| BufferClient.PutRawDataFrameExact | Unity2/Assets/Scripts/RealtimeBuffer/UnityBuffer.cs:405-411 | a payload that passes the length check fills the prepared buffer exactly |
| BufferClient.MatrixFrame | Unity2/Assets/Scripts/RealtimeBuffer/UnityBuffer.cs:457-468 | the typed putData frame carries the overload's tag and the row-major packed cells, and exists exactly when it fits |
| BufferClient.PutData | Unity2/Assets/Scripts/RealtimeBuffer/UnityBuffer.cs:457-474 | an empty matrix returns at once; a matrix too large throws before anything is sent; otherwise its frame is sent |
| BufferClient.PutDataIsPutRawData | Unity2/Assets/Scripts/RealtimeBuffer/UnityBuffer.cs:419-531 | every putData overload does what putRawData does with the packed matrix and the overload's tag |
| BufferClient.PackedMatrix | Unity2/Assets/Scripts/RealtimeBuffer/UnityBuffer.cs:463-468 | the packed rows are the row-major cells, and the 32-bit bufsize wraps their length |
| BufferClient.EchoFits | Unity2/Assets/Scripts/RealtimeBuffer/UnityBuffer.cs:640 | the descriptor putData writes states the matrix's shape, tag and packed length, and passes getRawData's size rule |
| BufferClient.MatrixFrameBody | Unity2/Assets/Scripts/RealtimeBuffer/UnityBuffer.cs:639-640 | the putData frame after its envelope is the descriptor followed by the packed matrix |
| BufferClient.EchoedPut | Unity2/Assets/Scripts/RealtimeBuffer/UnityBuffer.cs:384-395 | a server that answers GET_DAT with what putData wrote hands getRawData exactly that descriptor and payload |
| BufferClient.IntMatrixReadBack | Unity2/Assets/Scripts/RealtimeBuffer/UnityBuffer.cs:191-197 | end to end, an int matrix written and read back comes back as zeros through getIntData and unchanged through getLongData |
| BufferClient.Flush | Unity2/Assets/Scripts/RealtimeBuffer/UnityBuffer.cs:534-565 | sends the empty flush request and leaves the header alone |
| BufferClient.FlushHeader | Unity2/Assets/Scripts/RealtimeBuffer/UnityBuffer.cs:534-543 | on a socket, sends the 8-byte FLUSH_HDR request; the stored header is kept |
| BufferClient.FlushData | Unity2/Assets/Scripts/RealtimeBuffer/UnityBuffer.cs:545-554 | on a socket, sends the 8-byte FLUSH_DAT request; the stored header is kept |
| BufferClient.FlushEvents | Unity2/Assets/Scripts/RealtimeBuffer/UnityBuffer.cs:556-565 | on a socket, sends the 8-byte FLUSH_EVT request; the stored header is kept |
| BufferClient.FlushOnResponse | Unity2/Assets/Scripts/RealtimeBuffer/UnityBuffer.cs:539-542 | a flush succeeds on any reply of the protocol's version, recording BUFFER_READ_ERROR for a foreign command; a foreign version throws |
| BufferClient.GetShortData | Unity2/Assets/Scripts/RealtimeBuffer/UnityBuffer.cs:135-165 | getRawData's exception passes through; otherwise the conversion keeps ShortData's contract |
| BufferClient.GetIntData | Unity2/Assets/Scripts/RealtimeBuffer/UnityBuffer.cs:167-204 | getRawData's exception passes through; otherwise the conversion keeps IntData's contract |
| BufferClient.GetLongData | Unity2/Assets/Scripts/RealtimeBuffer/UnityBuffer.cs:206-250 | getRawData's exception passes through; otherwise the conversion keeps LongData's contract |
| BufferClient.GetFloatData | Unity2/Assets/Scripts/RealtimeBuffer/UnityBuffer.cs:252-302 | getRawData's exception passes through; otherwise the conversion keeps FloatData's contract |
| BufferClient.GetDoubleData | Unity2/Assets/Scripts/RealtimeBuffer/UnityBuffer.cs:304-363 | getRawData's exception passes through; otherwise the conversion keeps DoubleData's contract |

## Left out

- Sockets, `SocketChannel` and the `lock (this)` sections. The socket is the pair of `sent` frames and `incoming` bytes, and concurrency is not modelled.
- `writeAll` is modelled as writing the whole frame. On a socket that exists but is not connected, the frame is still recorded in `sent`; what the unseen `SocketChannel.write` does there is not known.
- `readAll`: a read returning 0 is modelled as the stream running dry.
- The `ByteBuffer` class is not part of this model. Four assumptions follow:
  - `allocate(n)` is taken to throw when n is negative (Protocol.Answer, BufferClient.HeaderFrame and BufferClient.PutDataFrame rely on this), and otherwise to yield n zero bytes readable up to capacity, and `length()` (UnityBuffer.cs:593) to count the bytes that arrived, so `def.length() == 0` means no byte arrived. Protocol.ReadAll and Protocol.ReadResponseShortBody rely on this assumption;
  - its `get()` is taken to be signed, as Java's is, so INT8 samples decode to -128..127;
  - its view buffers are taken to advance the parent, so the `putData` payload is the row-major concatenation of the rows;
  - its `slice()` is taken to keep the parent's byte order, so the buffer `getRawData` returns (UnityBuffer.cs:395) is decoded in the client's byte order. Java's `slice()` would reset the order to big-endian. Marshal.ElementWiseExact, Marshal.ReadBackAfterPut and BufferClient.IntMatrixReadBack rely on this assumption.
- Floating-point values. A float or double element is `Converted(kind, word)`, and the numeric conversion is not modelled. On the put side, float and double elements are given as their IEEE 754 bit patterns.
- `Header` internals: `serialize`, `getSerialSize` and `new Header(buf)` are not part of this model. The parser is a parameter `parse`, and the serialized header is a parameter `serial`.
- The `DataType` class is not part of this model. Its tags are assumed to be 0..5 (INT8, INT16, INT32, INT64, FLOAT32, FLOAT64), with word sizes 1, 2, 4, 8, 4, 8.
- Allocation failures (out of memory) and the C# exception types. Each exception is one `Fault` value.
- WAIT_DAT, events, and the error constants no operation records (INVALID_EVENT_DEF_ERROR). The client has no operation that sends them.
- Unity2/Assets/Test8.cs: the Unity scene driver, which is rendering and file I/O.
- BufferClient.GetRawData: its own contract states only what any returned value satisfies. The error cases and the implicit `getHeader` are stated by RequestData, RequestDataOnFrame, RequestDataOnResponse, GetRawDataWithHeader, GetRawDataFetchesHeader and GetRawDataHeaderFails.
- BufferClient.PutData: its own contract does not state the client after the exchange. PutDataIsPutRawData relates it to PutRawData, and PutRawDataOnResponse states the exchange for every reply.
- BufferClient.SizesAgreeSuffices: requires that the 32-bit product does not wrap. SizesAgreeWraps shows what happens when it does.
- Marshal.KindOf: states only the word size of each overload's tag; the tags themselves are the table in its body.

## Findings

| source | as written | input that shows it | evidently intended | confidence | as-written member | corrected member |
|---|---|---|---|---|---|---|
| Unity2/Assets/Scripts/RealtimeBuffer/UnityBuffer.cs:191-197 | the same-kind fast paths of `getShortData`, `getIntData`, `getLongData` and `getDoubleData` (lines 152-158, 191-197, 237-243, 350-356) fill the copy `getRow` returns, never the matrix, so the matrix stays all zero | an INT32 matrix [[7]] written by `putData(int[,])` and read by `getIntData` comes back as [[0]] | each row read from the stream is stored into row n of the matrix, so the read returns what was written | not executed | Marshal.RowCopyLosesData | Marshal.FillRowsIntended |

The typed getters keep the behaviour as written, because that is what callers observe. `Marshal.ReadBackAfterPut` and `BufferClient.IntMatrixReadBack` state its consequence for every matrix. `Marshal.FillRowsIntended` returns exactly the element-wise reading. `Marshal.ElementWiseExact` proves that this reading gives back every short, int or long matrix that `putData` wrote.

=== FILE: bytes.dfy ===
/** Fixed-width two's-complement integers as they travel on the wire, in
    either byte order, and the 32-bit wrap-around of the client's size
    arithmetic. */
module Bytes {

  type byte = b: int | 0 <= b < 256

  /** The byte order is chosen once, when the client is constructed. */
  datatype ByteOrder = BigEndian | LittleEndian

  const INT16_MIN := -0x8000
  const INT16_MAX := 0x7FFF
  const INT32_MIN := -0x8000_0000
  const INT32_MAX := 0x7FFF_FFFF
  const TWO_32 := 0x1_0000_0000

  predicate IsInt16(v: int) { INT16_MIN <= v <= INT16_MAX }
  predicate IsInt32(v: int) { INT32_MIN <= v <= INT32_MAX }

  function Pow256(n: nat): (r: nat)
    ensures r >= 1
  {
    if n == 0 then 1 else 256 * Pow256(n - 1)
  }

  /** The least value that no longer fits an n-byte signed integer. */
  function Half(n: nat): (r: nat)
    requires n > 0
    ensures 2 * r == Pow256(n)
  {
    128 * Pow256(n - 1)
  }

  /** Values representable as an n-byte two's-complement integer. */
  predicate InRange(v: int, n: nat)
    requires n > 0
  {
    -(Half(n) as int) <= v < Half(n)
  }

  function Zeros(n: nat): (r: seq<byte>)
    ensures |r| == n
    ensures forall i :: 0 <= i < n ==> r[i] == 0
  {
    seq(n, _ => 0)
  }

  /** The n least significant base-256 digits of u, least significant first. */
  function ToLE(u: nat, n: nat): (r: seq<byte>)
    ensures |r| == n
  {
    if n == 0 then [] else [(u % 256) as byte] + ToLE(u / 256, n - 1)
  }

  /** The unsigned value of a little-endian digit string. */
  function FromLE(bs: seq<byte>): (r: nat)
    ensures r < Pow256(|bs|)
  {
    if |bs| == 0 then 0 else bs[0] + 256 * FromLE(bs[1..])
  }

  function Reverse<T>(s: seq<T>): (r: seq<T>)
    ensures |r| == |s|
    ensures forall i :: 0 <= i < |s| ==> r[i] == s[|s| - 1 - i]
  {
    if |s| == 0 then [] else Reverse(s[1..]) + [s[0]]
  }

  /** Puts little-endian digits into the wire order (and back: see LemmaArrangeTwice). */
  function Arrange(order: ByteOrder, digits: seq<byte>): seq<byte>
  {
    if order == LittleEndian then digits else Reverse(digits)
  }

  /** The value an n-byte two's-complement field holds after v is stored in it. */
  function Wrap(v: int, n: nat): (r: int)
    requires n > 0
    ensures InRange(r, n)
  {
    var u := v % Pow256(n);
    if u >= Half(n) then u - Pow256(n) else u
  }

  /** `putShort`/`putInt`/`putLong`: v stored in n bytes, two's complement, in `order`. */
  function Encode(order: ByteOrder, n: nat, v: int): (r: seq<byte>)
    ensures |r| == n
  {
    Arrange(order, ToLE(v % Pow256(n), n))
  }

  /** `getShort`/`getInt`/`getLong`: the signed value of a |bs|-byte field in `order`. */
  function Decode(order: ByteOrder, bs: seq<byte>): (r: int)
    requires |bs| > 0
    ensures InRange(r, |bs|)
  {
    var u := FromLE(Arrange(order, bs));
    if u >= Half(|bs|) then u - Pow256(|bs|) else u
  }

  lemma LemmaArrangeTwice(order: ByteOrder, s: seq<byte>)
    ensures Arrange(order, Arrange(order, s)) == s
  {
  }

  lemma {:induction false} LemmaFromToLE(u: nat, n: nat)
    requires u < Pow256(n)
    ensures FromLE(ToLE(u, n)) == u
  {
    if n > 0 {
      var t := ToLE(u, n);
      assert t[1..] == ToLE(u / 256, n - 1);
      LemmaFromToLE(u / 256, n - 1);
    }
  }

  lemma {:induction false} LemmaToFromLE(bs: seq<byte>)
    ensures ToLE(FromLE(bs), |bs|) == bs
  {
    if |bs| > 0 {
      var u := FromLE(bs);
      assert u % 256 == bs[0];
      assert u / 256 == FromLE(bs[1..]);
      LemmaToFromLE(bs[1..]);
    }
  }

  /** Storing v in an n-byte field and reading the field back yields v wrapped to n bytes. */
  lemma DecodeEncode(order: ByteOrder, n: nat, v: int)
    requires n > 0
    ensures Decode(order, Encode(order, n, v)) == Wrap(v, n)
  {
    var u := v % Pow256(n);
    LemmaArrangeTwice(order, ToLE(u, n));
    LemmaFromToLE(u, n);
  }

  /** Euclidean division is unique: a remainder in [0, p) determines `%`. */
  lemma LemmaModUnique(x: int, p: int, q: int, r: int)
    requires p > 0 && x == q * p + r && 0 <= r < p
    ensures x % p == r
  {
    var d := q - x / p;
    assert d * p == x % p - r;
  }

  lemma LemmaWrapInRange(v: int, n: nat)
    requires n > 0 && InRange(v, n)
    ensures Wrap(v, n) == v
  {
    var p := Pow256(n);
    if v >= 0 {
      LemmaModUnique(v, p, 0, v);
    } else {
      LemmaModUnique(v, p, -1, v + p);
    }
  }

  /** Round trip: every value that fits the field is read back unchanged. */
  lemma RoundTrip(order: ByteOrder, n: nat, v: int)
    requires n > 0 && InRange(v, n)
    ensures Decode(order, Encode(order, n, v)) == v
  {
    DecodeEncode(order, n, v);
    LemmaWrapInRange(v, n);
  }

  /** The other direction: every n-byte field is the encoding of the value it decodes to. */
  lemma EncodeDecode(order: ByteOrder, bs: seq<byte>)
    requires |bs| > 0
    ensures Encode(order, |bs|, Decode(order, bs)) == bs
  {
    var n := |bs|;
    var p := Pow256(n);
    var u := FromLE(Arrange(order, bs));
    var v := Decode(order, bs);
    if u >= Half(n) {
      LemmaModUnique(v, p, -1, u);
    } else {
      LemmaModUnique(v, p, 0, u);
    }
    LemmaToFromLE(Arrange(order, bs));
    LemmaArrangeTwice(order, bs);
  }

  /** The 16-bit fields of a frame. */
  lemma RoundTrip16(order: ByteOrder, v: int)
    requires IsInt16(v)
    ensures Decode(order, Encode(order, 2, v)) == v
  {
    assert Half(2) == 0x8000;
    RoundTrip(order, 2, v);
  }

  /** The 32-bit fields of a frame and of a data descriptor. */
  lemma RoundTrip32(order: ByteOrder, v: int)
    requires IsInt32(v)
    ensures Decode(order, Encode(order, 4, v)) == v
  {
    assert Half(4) == 0x8000_0000;
    RoundTrip(order, 4, v);
  }

  /** C#'s unchecked `int` conversion of an integer result. */
  function Wrap32(v: int): (r: int)
    ensures IsInt32(r)
    ensures IsInt32(v) ==> r == v
  {
    var u := v % TWO_32;
    if u > INT32_MAX then u - TWO_32 else u
  }

  /** A result just past INT32_MAX wraps round to a negative value. */
  lemma Wrap32Overflow(v: int)
    requires INT32_MAX < v < TWO_32
    ensures Wrap32(v) == v - TWO_32
  {
    LemmaModUnique(v, TWO_32, 0, v);
  }

  /** C#'s unchecked 32-bit `int` multiplication. */
  function Mul32(a: int, b: int): int
  {
    Wrap32(a * b)
  }

  lemma LemmaWrap32Congruent(x: int, y: int)
    requires (x - y) % TWO_32 == 0
    ensures Wrap32(x) == Wrap32(y)
  {
    assert x % TWO_32 == y % TWO_32;
  }

  /** A chain of two 32-bit multiplications wraps the exact product once. */
  lemma {:induction false} Mul32Chain(a: int, b: int, c: int)
    ensures Mul32(Mul32(a, b), c) == Wrap32(a * b * c)
  {
    var w := Wrap32(a * b);
    var k := (w - a * b) / TWO_32;
    assert w - a * b == k * TWO_32;
    assert w * c - a * b * c == (k * c) * TWO_32;
    assert (w * c - a * b * c) % TWO_32 == 0;
    LemmaWrap32Congruent(w * c, a * b * c);
  }

  /** The order of the factors does not matter to a chain of 32-bit products. */
  lemma Mul32Rotate(a: int, b: int, c: int)
    ensures Mul32(Mul32(a, b), c) == Mul32(Mul32(b, c), a)
  {
    var bc := b * c;
    assert a * b * c == bc * a;
    Mul32Chain(a, b, c);
    Mul32Chain(b, c, a);
  }
}

=== FILE: client.dfy ===
/** The buffer client: its connection state, and the public operations, each
    of which writes one request frame and reads one response frame. The
    socket is abstracted as the bytes written so far and the bytes the
    server will still deliver; the last-error field is part of the state
    every operation returns. */
module BufferClient {
  import opened Bytes
  import opened Protocol
  import opened Marshal

  /** No socket yet, or a socket that is or is not connected. */
  datatype Socket = NoChannel | Channel(connected: bool)

  /** The header fields the client itself reads; the rest of the header and
      its wire format belong to the header model, which is not part of this
      model. */
  datatype Header = Header(nChans: int, nSamples: int, nEvents: int, channelNameSize: int)

  /** `new Header(0, 0, 0)`: the degenerate header of a failed GET_HDR. */
  const EMPTY_HEADER := Header(0, 0, 0, 0)

  const DEFAULT_HOST := "127.0.0.1"
  const DEFAULT_PORT := 1992

  datatype Client = Client(
    order: ByteOrder,
    socket: Socket,
    host: string,
    port: int,
    header: Option<Header>,
    lastError: int,
    sent: seq<seq<byte>>, // the request frames written to the socket, oldest first
    incoming: seq<byte>)  // the bytes the server has yet to deliver

  /** An operation's outcome: the client afterwards, and the value returned
      or the exception thrown. */
  datatype Step<T> = Step(client: Client, result: Result<T>)

  /** A fresh client: the byte order fixed once, the default endpoint, no
      socket and so no stream. */
  function NewClient(order: ByteOrder): (c: Client)
    ensures c.socket == NoChannel && !IsConnected(c) && c.header.None? && c.sent == []
    ensures c.host == DEFAULT_HOST && c.port == DEFAULT_PORT && c.incoming == []
  {
    Client(order, NoChannel, DEFAULT_HOST, DEFAULT_PORT, None, 0, [], [])
  }

  // ------------------------------------------------------------------
  // Connection

  function IsConnected(c: Client): (b: bool)
    ensures b <==> c.socket == Channel(true)
  {
    match c.socket
    case NoChannel => false
    case Channel(connected) => connected
  }

  /** `connect`: an open connection is closed and replaced by a new socket,
      the endpoint is recorded before the attempt, and the attempt's outcome
      (`accepted`, decided by the peer) is returned. Whether the socket is
      new or an unconnected one reused, the attempt opens a new connection,
      so the bytes left unread on the previous one are gone and the stream
      becomes `stream`, what the peer sends on the new connection. */
  function Connect(c: Client, host: string, port: int, accepted: bool, stream: seq<byte>): (r: Step<bool>)
    ensures r.client.host == host && r.client.port == port
    ensures r.result == Ok(accepted) && IsConnected(r.client) == accepted
    ensures r.client.socket == Channel(accepted)
    ensures r.client.incoming == stream
    ensures r.client == c.(socket := r.client.socket, host := host, port := port, incoming := stream)
  {
    Step(c.(socket := Channel(accepted), host := host, port := port, incoming := stream), Ok(accepted))
  }

  /** `reconnect`: connects again to the endpoint recorded by the last `connect`. */
  function Reconnect(c: Client, accepted: bool, stream: seq<byte>): (r: Step<bool>)
    ensures r.client.host == c.host && r.client.port == c.port
    ensures r.result == Ok(accepted)
    ensures r.client == c.(socket := Channel(accepted), incoming := stream)
  {
    Connect(c, c.host, c.port, accepted, stream)
  }

  /** `disconnect`: closes the socket; without one it throws. */
  function Disconnect(c: Client): (r: Step<()>)
    ensures c.socket.NoChannel? <==> r.result == Fail(NoSocket)
    ensures !IsConnected(r.client)
    ensures c.socket.Channel? ==> r.client.socket == Channel(false)
    ensures r.client == c.(socket := r.client.socket)
  {
    match c.socket
    case NoChannel => Step(c, Fail(NoSocket))
    case Channel(_) => Step(c.(socket := Channel(false)), Ok(()))
  }

  /** A failed attempt still records the endpoint, so `reconnect` retries it. */
  lemma ReconnectReplaysEndpoint(c: Client, host: string, port: int, first: bool, second: bool,
                                 stream1: seq<byte>, stream2: seq<byte>)
    ensures var r := Reconnect(Connect(c, host, port, first, stream1).client, second, stream2);
      r.client.host == host && r.client.port == port && IsConnected(r.client) == second
  {
  }

  // ------------------------------------------------------------------
  // Request and response

  /** The client after a frame was written and response `resp` was read. */
  function Delivered(c: Client, frame: seq<byte>, resp: Response): Step<seq<byte>>
  {
    Step(c.(sent := c.sent + [frame], incoming := resp.rest, lastError := resp.code), resp.body)
  }

  /** `writeAll` then `readResponse`. Without a socket the write throws and
      nothing changes; on a socket that is not connected the read loop never
      runs, so no envelope arrives. */
  function Exchange(c: Client, frame: seq<byte>, expected: int): (r: Step<seq<byte>>)
    ensures c.socket.NoChannel? ==> r == Step(c, Fail(NoSocket))
    ensures r.result.Fail? ==> r.result.fault in {NoSocket, ReadFailed, BadVersion, CapacityError}
    ensures c.socket.Channel? ==> r.client.sent == c.sent + [frame]
    ensures c.socket == Channel(false) ==>
      r.result == Fail(ReadFailed) && r.client.lastError == BUFFER_READ_ERROR && r.client.incoming == c.incoming
    ensures c.socket.Channel? ==> r.client.lastError in {NO_ERROR, BUFFER_READ_ERROR, VERSION_ERROR}
    ensures c.socket.Channel? && r.client.lastError == VERSION_ERROR ==> r.result == Fail(BadVersion)
    ensures r.client == c.(sent := r.client.sent, incoming := r.client.incoming, lastError := r.client.lastError)
  {
    match c.socket
    case NoChannel => Step(c, Fail(NoSocket))
    case Channel(connected) =>
      if connected then Delivered(c, frame, ReadResponse(c.order, expected, c.incoming))
      else
        var nothing := ReadResponse(c.order, expected, []);
        Step(c.(sent := c.sent + [frame], lastError := nothing.code), nothing.body)
  }

  /** On a connected socket whose next bytes are a complete frame, the
      exchange has the outcome FrameResponse describes. */
  lemma ExchangeOnFrame(c: Client, frame: seq<byte>, expected: int, version: int, command: int,
                        body: seq<byte>, rest: seq<byte>)
    requires IsConnected(c) && IsInt16(version) && IsInt16(command) && |body| <= INT32_MAX
    requires c.incoming == Frame(c.order, version, command, body) + rest
    ensures Exchange(c, frame, expected) == Delivered(c, frame, FrameResponse(expected, version, command, body, rest))
  {
    ReadResponseOfFrame(c.order, expected, version, command, body, rest);
  }

  /** For the operations that ignore the response body. */
  function Discard<T>(s: Step<T>): Step<()>
  {
    Step(s.client, if s.result.Ok? then Ok(()) else Fail(s.result.fault))
  }

  /** `getHeader`: the parsed header when the recorded code is NO_ERROR,
      otherwise the degenerate header; `parse` stands for the header
      parser, and a body it rejects throws. */
  function GetHeader(c: Client, parse: seq<byte> -> Option<Header>): (r: Step<Header>)
    ensures c.socket.Channel? ==> r.client.sent == c.sent + [EmptyRequest(c.order, GET_HDR)]
    ensures r.result.Ok? ==> r.client.header == Some(r.result.value)
    ensures r.result.Ok? && r.client.lastError != NO_ERROR ==> r.result.value == EMPTY_HEADER
    ensures r.result.Fail? ==> r.client.header == c.header
  {
    var x := Exchange(c, EmptyRequest(c.order, GET_HDR), GET_OK);
    match x.result
    case Fail(f) => Step(x.client, Fail(f))
    case Ok(body) =>
      if x.client.lastError == NO_ERROR then
        match parse(body)
        case None => Step(x.client, Fail(MalformedHeader))
        case Some(h) => Step(x.client.(header := Some(h)), Ok(h))
      else
        Step(x.client.(header := Some(EMPTY_HEADER)), Ok(EMPTY_HEADER))
  }

  /** The header `getHeader` stores for a body of the protocol's version. */
  function HeaderOf(command: int, parsed: Option<Header>): Option<Header>
  {
    if command != GET_OK then Some(EMPTY_HEADER) else parsed
  }

  /** The outcomes of `getHeader` for every complete response frame: a
      foreign version throws and leaves the body unread, a foreign command
      yields the degenerate header, and the expected command yields the
      parsed body, or throws when the parser rejects it. */
  lemma GetHeaderOnResponse(c: Client, parse: seq<byte> -> Option<Header>, version: int, command: int,
                            body: seq<byte>, rest: seq<byte>)
    requires IsConnected(c) && IsInt16(version) && IsInt16(command) && |body| <= INT32_MAX
    requires c.incoming == Frame(c.order, version, command, body) + rest
    ensures var after := c.(sent := c.sent + [EmptyRequest(c.order, GET_HDR)]);
      GetHeader(c, parse) ==
        if version != VERSION then
          Step(after.(incoming := body + rest, lastError := VERSION_ERROR), Fail(BadVersion))
        else
          var code := if command == GET_OK then NO_ERROR else BUFFER_READ_ERROR;
          match HeaderOf(command, parse(body))
          case None => Step(after.(incoming := rest, lastError := code), Fail(MalformedHeader))
          case Some(h) => Step(after.(incoming := rest, lastError := code, header := Some(h)), Ok(h))
  {
    ExchangeOnFrame(c, EmptyRequest(c.order, GET_HDR), GET_OK, version, command, body, rest);
  }

  /** The PUT_HDR request: the envelope, then the serialized header, in a
      buffer of 8 + |serial| bytes whose 32-bit size must not wrap. */
  function HeaderFrame(order: ByteOrder, serial: seq<byte>): (r: Result<seq<byte>>)
    requires |serial| <= INT32_MAX
    ensures r.Ok? <==> |serial| <= INT32_MAX - 8
    ensures r.Fail? ==> r == Fail(CapacityError)
    ensures r.Ok? ==>
      && |r.value| == 8 + |serial|
      && DecodeEnvelope(order, r.value[..8]) == Envelope(VERSION, PUT_HDR, |serial|)
      && r.value[8..] == serial
  {
    var capacity := Wrap32(8 + |serial|);
    Capacity(8, |serial|);
    if capacity < 0 then Fail(CapacityError)
    else
      var env := EncodeEnvelope(order, Envelope(VERSION, PUT_HDR, |serial|));
      assert (env + serial)[..8] == env;
      Ok(env + serial)
  }

  /** The capacity `ByteBuffer.allocate` receives for a frame of `head`
      header bytes and `size` more: the 32-bit sum, which is at least `head`
      exactly when the frame fits, and negative when it does not. */
  lemma Capacity(head: int, size: int)
    requires 0 < head <= 24 && IsInt32(size)
    ensures Wrap32(head + size) >= head <==> 0 <= size <= INT32_MAX - head
    ensures size >= 0 && Wrap32(head + size) < head ==> Wrap32(head + size) < 0
    ensures Wrap32(head + size) >= head ==> Wrap32(head + size) == head + size
  {
    if head + size > INT32_MAX {
      Wrap32Overflow(head + size);
    }
  }

  /** `putHeader`: sends the serialized header (`serial`, produced by the
      header model) and reports `channelNameSize > nChans`; the response
      is read but its command is only recorded. */
  function PutHeader(c: Client, hdr: Header, serial: seq<byte>): (r: Step<bool>)
    requires |serial| <= INT32_MAX
    ensures r.result.Ok? ==> r.result.value == (hdr.channelNameSize > hdr.nChans)
    ensures HeaderFrame(c.order, serial).Fail? ==> r == Step(c, Fail(CapacityError))
    ensures HeaderFrame(c.order, serial).Ok? && c.socket.Channel? ==>
      r.client.sent == c.sent + [HeaderFrame(c.order, serial).value]
    ensures HeaderFrame(c.order, serial).Ok? ==>
      (r.result.Fail? <==> Exchange(c, HeaderFrame(c.order, serial).value, PUT_OK).result.Fail?)
    ensures HeaderFrame(c.order, serial).Ok? ==>
      r.client == Exchange(c, HeaderFrame(c.order, serial).value, PUT_OK).client
  {
    match HeaderFrame(c.order, serial)
    case Fail(f) => Step(c, Fail(f))
    case Ok(frame) =>
      var x := Exchange(c, frame, PUT_OK);
      match x.result
      case Fail(f) => Step(x.client, Fail(f))
      case Ok(_) => Step(x.client, Ok(hdr.channelNameSize > hdr.nChans))
  }

  /** The outcome of a `putHeader` for every complete reply: a foreign
      version throws and leaves the reply's body unread; any other reply
      completes the call, which then reports whether channel names were
      written, and the reply's command only decides the recorded code. */
  lemma PutHeaderOnResponse(c: Client, hdr: Header, serial: seq<byte>, version: int, command: int,
                            body: seq<byte>, rest: seq<byte>)
    requires |serial| <= INT32_MAX - 8
    requires IsConnected(c) && IsInt16(version) && IsInt16(command) && |body| <= INT32_MAX
    requires c.incoming == Frame(c.order, version, command, body) + rest
    ensures HeaderFrame(c.order, serial).Ok?
    ensures var after := c.(sent := c.sent + [HeaderFrame(c.order, serial).value]);
      PutHeader(c, hdr, serial) ==
        if version != VERSION then
          Step(after.(incoming := body + rest, lastError := VERSION_ERROR), Fail(BadVersion))
        else
          Step(after.(incoming := rest, lastError := if command == PUT_OK then NO_ERROR else BUFFER_READ_ERROR),
               Ok(hdr.channelNameSize > hdr.nChans))
  {
    ExchangeOnFrame(c, HeaderFrame(c.order, serial).value, PUT_OK, version, command, body, rest);
  }

  // ------------------------------------------------------------------
  // Raw data

  /** `getRawData` first fetches the header when it has none or the one it
      has reports no samples. */
  predicate NeedsHeader(c: Client)
  {
    c.header.None? || c.header.value.nSamples < 1
  }

  /** The size rule for a GET_DAT descriptor, in the client's 32-bit
      arithmetic: the samples fit the declared size, which fits the bytes
      that follow the descriptor. */
  predicate SizesAgree(d: Descriptor, kind: DataType, remaining: int)
  {
    Mul32(Mul32(d.nChans, d.nSamples), WordSize(kind)) <= d.sizeBytes <= remaining
  }

  /** The GET_DAT exchange proper, once a header is present. */
  function RequestData(c: Client, first: int, last: int): (r: Step<RawData>)
    requires IsInt32(first) && IsInt32(last)
    ensures c.socket.Channel? ==> r.client.sent == c.sent + [GetDataRequest(c.order, first, last)]
    ensures r.client.header == c.header
    ensures c.socket.Channel? ==> (r.result == Fail(InvalidSize) <==> r.client.lastError == INVALID_SIZE_DATA_DEF_ERROR)
    ensures var x := Exchange(c, GetDataRequest(c.order, first, last), GET_OK);
      x.result.Fail? ==> r == Step(x.client, Fail(x.result.fault))
    ensures r.result.Fail? ==>
      r.result.fault in {NoSocket, ReadFailed, BadVersion, CapacityError, Underflow, UnknownType, InvalidSize}
    ensures r.result.Ok? ==>
      && DescriptorFits(r.result.value.descr)
      && KindOfTag(r.result.value.descr.dataType) == Some(r.result.value.kind)
      && SizesAgree(r.result.value.descr, r.result.value.kind, |r.result.value.payload|)
  {
    var x := Exchange(c, GetDataRequest(c.order, first, last), GET_OK);
    match x.result
    case Fail(f) => Step(x.client, Fail(f))
    case Ok(body) =>
      if |body| < 16 then Step(x.client, Fail(Underflow))
      else
        var d := DecodeDescriptor(c.order, body);
        match KindOfTag(d.dataType)
        case None => Step(x.client, Fail(UnknownType))
        case Some(kind) =>
          var payload := body[16..];
          if !SizesAgree(d, kind, |payload|) then
            Step(x.client.(lastError := INVALID_SIZE_DATA_DEF_ERROR), Fail(InvalidSize))
          else
            Step(x.client, Ok(RawData(d, kind, payload)))
  }

  /** `getRawData(first, last)`: GET_DAT for the inclusive sample window,
      after fetching the header when it is needed; a header fetch that
      throws ends the call. */
  function GetRawData(c: Client, parse: seq<byte> -> Option<Header>, first: int, last: int): (r: Step<RawData>)
    requires IsInt32(first) && IsInt32(last)
    ensures r.result.Ok? ==>
      && KindOfTag(r.result.value.descr.dataType) == Some(r.result.value.kind)
      && SizesAgree(r.result.value.descr, r.result.value.kind, |r.result.value.payload|)
  {
    if NeedsHeader(c) then
      var h := GetHeader(c, parse);
      if h.result.Fail? then Step(h.client, Fail(h.result.fault))
      else RequestData(h.client, first, last)
    else
      RequestData(c, first, last)
  }

  /** The outcome of the GET_DAT exchange for every complete response:
      a foreign version throws and leaves the body unread; a body too short
      for the descriptor underflows; a tag outside the type table throws;
      otherwise the descriptor and the bytes after it are returned exactly
      when the size rule holds, and INVALID_SIZE_DATA_DEF_ERROR is recorded
      when it does not. A foreign command is recorded but not rejected. */
  lemma RequestDataOnFrame(c: Client, first: int, last: int, version: int, command: int,
                           body: seq<byte>, rest: seq<byte>)
    requires IsInt32(first) && IsInt32(last) && IsInt16(version) && IsInt16(command)
    requires IsConnected(c) && |body| <= INT32_MAX
    requires c.incoming == Frame(c.order, version, command, body) + rest
    ensures var sent := c.sent + [GetDataRequest(c.order, first, last)];
      var after := c.(sent := sent, incoming := rest, lastError := if command == GET_OK then NO_ERROR else BUFFER_READ_ERROR);
      RequestData(c, first, last) ==
        if version != VERSION then
          Step(c.(sent := sent, incoming := body + rest, lastError := VERSION_ERROR), Fail(BadVersion))
        else if |body| < 16 then
          Step(after, Fail(Underflow))
        else if KindOfTag(DecodeDescriptor(c.order, body).dataType).None? then
          Step(after, Fail(UnknownType))
        else if SizesAgree(DecodeDescriptor(c.order, body), KindOfTag(DecodeDescriptor(c.order, body).dataType).value, |body| - 16) then
          Step(after, Ok(RawData(DecodeDescriptor(c.order, body), KindOfTag(DecodeDescriptor(c.order, body).dataType).value, body[16..])))
        else
          Step(after.(lastError := INVALID_SIZE_DATA_DEF_ERROR), Fail(InvalidSize))
  {
    ExchangeOnFrame(c, GetDataRequest(c.order, first, last), GET_OK, version, command, body, rest);
  }

  /** The same for a response whose body is a descriptor followed by a
      payload: the descriptor read is the one written, and its tag alone
      decides between the type table and UnknownType. */
  lemma RequestDataOnResponse(c: Client, first: int, last: int, version: int, command: int,
                              d: Descriptor, payload: seq<byte>, rest: seq<byte>)
    requires IsInt32(first) && IsInt32(last) && IsInt16(version) && IsInt16(command)
    requires IsConnected(c) && DescriptorFits(d)
    requires 16 + |payload| <= INT32_MAX
    requires c.incoming == Frame(c.order, version, command, EncodeDescriptor(c.order, d) + payload) + rest
    ensures var sent := c.sent + [GetDataRequest(c.order, first, last)];
      var after := c.(sent := sent, incoming := rest, lastError := if command == GET_OK then NO_ERROR else BUFFER_READ_ERROR);
      RequestData(c, first, last) ==
        if version != VERSION then
          Step(c.(sent := sent, incoming := EncodeDescriptor(c.order, d) + payload + rest, lastError := VERSION_ERROR),
               Fail(BadVersion))
        else if KindOfTag(d.dataType).None? then
          Step(after, Fail(UnknownType))
        else if SizesAgree(d, KindOfTag(d.dataType).value, |payload|) then
          Step(after, Ok(RawData(d, KindOfTag(d.dataType).value, payload)))
        else
          Step(after.(lastError := INVALID_SIZE_DATA_DEF_ERROR), Fail(InvalidSize))
  {
    var body := EncodeDescriptor(c.order, d) + payload;
    RequestDataOnFrame(c, first, last, version, command, body, rest);
    DescriptorRoundTrip(c.order, d, payload);
    assert body[16..] == payload;
  }

  /** With a header that reports samples, `getRawData` is the GET_DAT
      exchange alone. */
  lemma GetRawDataWithHeader(c: Client, parse: seq<byte> -> Option<Header>, first: int, last: int)
    requires IsInt32(first) && IsInt32(last) && !NeedsHeader(c)
    ensures GetRawData(c, parse, first, last) == RequestData(c, first, last)
  {
  }

  /** Without a usable header, `getRawData` first runs `getHeader`: when
      the reply has the protocol's version and a body the parser accepts
      (or a foreign command, which stores the degenerate header), the
      GET_DAT exchange follows on the client that `getHeader` left. */
  lemma GetRawDataFetchesHeader(c: Client, parse: seq<byte> -> Option<Header>, first: int, last: int,
                                command: int, body: seq<byte>, next: seq<byte>)
    requires IsInt32(first) && IsInt32(last) && NeedsHeader(c)
    requires IsConnected(c) && IsInt16(command) && |body| <= INT32_MAX
    requires c.incoming == Frame(c.order, VERSION, command, body) + next
    requires HeaderOf(command, parse(body)).Some?
    ensures var fetched := c.(sent := c.sent + [EmptyRequest(c.order, GET_HDR)], incoming := next,
                              lastError := if command == GET_OK then NO_ERROR else BUFFER_READ_ERROR,
                              header := HeaderOf(command, parse(body)));
      GetRawData(c, parse, first, last) == RequestData(fetched, first, last)
  {
    GetHeaderOnResponse(c, parse, VERSION, command, body, next);
  }

  /** A header fetch that throws ends `getRawData` before GET_DAT is sent. */
  lemma GetRawDataHeaderFails(c: Client, parse: seq<byte> -> Option<Header>, first: int, last: int)
    requires IsInt32(first) && IsInt32(last) && NeedsHeader(c)
    requires GetHeader(c, parse).result.Fail?
    ensures GetRawData(c, parse, first, last) == Step(GetHeader(c, parse).client, Fail(GetHeader(c, parse).result.fault))
    ensures c.socket.Channel? ==> GetRawData(c, parse, first, last).client.sent == c.sent + [EmptyRequest(c.order, GET_HDR)]
  {
  }

  /** The size rule guarantees the getters enough bytes as long as the
      32-bit product of the counts does not wrap. */
  lemma SizesAgreeSuffices(raw: RawData)
    requires SizesAgree(raw.descr, raw.kind, |raw.payload|) && !NegativeDims(raw)
    requires Needed(raw) <= INT32_MAX
    ensures Needed(raw) <= |raw.payload|
  {
    var d := raw.descr;
    var ws := WordSize(raw.kind);
    Mul32Chain(d.nChans, d.nSamples, ws);
    assert d.nChans * d.nSamples * ws == Needed(raw);
  }

  /** When the product wraps, the size rule accepts a descriptor whose
      samples are not there: 65536 x 65536 INT8 samples in zero bytes. */
  lemma SizesAgreeWraps()
    ensures var raw := RawData(Descriptor(65536, 65536, Tag(INT8), 0), INT8, []);
      SizesAgree(raw.descr, raw.kind, 0) && Needed(raw) > |raw.payload|
  {
    Mul32Chain(65536, 65536, 1);
  }

  // ------------------------------------------------------------------
  // Putting data

  /** Where the parts of a data frame sit: an 8-byte envelope, a 16-byte
      descriptor, then the block. */
  lemma DataLayout(env: seq<byte>, descr: seq<byte>, block: seq<byte>)
    requires |env| == 8 && |descr| == 16
    ensures (env + descr + block)[..8] == env
    ensures (env + descr + block)[8..24] == descr
    ensures (env + descr + block)[8..] == descr + block
    ensures (env + descr + block)[24..] == block
  {
    var f := env + descr + block;
    assert f[..8] == env;
    assert f[8..24] == descr;
    assert f[8..] == descr + block;
    assert f[24..] == block;
  }

  /** A PUT_DAT frame for descriptor `d`: envelope, descriptor, then the
      payload at the front of a zero-initialized block of `d.sizeBytes`
      bytes. */
  function DataFrame(order: ByteOrder, d: Descriptor, payload: seq<byte>): (r: seq<byte>)
    requires DescriptorFits(d) && 0 <= d.sizeBytes <= INT32_MAX - 24 && |payload| <= d.sizeBytes
    ensures |r| == 24 + d.sizeBytes
    ensures DecodeEnvelope(order, r[..8]) == Envelope(VERSION, PUT_DAT, 16 + d.sizeBytes)
    ensures r[8..24] == EncodeDescriptor(order, d) && DecodeDescriptor(order, r[8..]) == d
    ensures r[24..24 + |payload|] == payload
  {
    var env := EncodeEnvelope(order, Envelope(VERSION, PUT_DAT, 16 + d.sizeBytes));
    var descr := EncodeDescriptor(order, d);
    var block := payload + Zeros(d.sizeBytes - |payload|);
    DataLayout(env, descr, block);
    DescriptorRoundTrip(order, d, block);
    assert block[..|payload|] == payload;
    env + descr + block
  }

  /** `preparePutData` and the payload put after it: the buffer is sized by
      the same 32-bit arithmetic, and a negative size, or one too small for
      the payload, throws before anything is written. */
  function PutDataFrame(order: ByteOrder, nChans: int, nSamples: int, kind: DataType, payload: seq<byte>): (r: Result<seq<byte>>)
    requires IsInt32(nChans) && IsInt32(nSamples)
    ensures var bufsize := Mul32(Mul32(WordSize(kind), nSamples), nChans);
      r.Ok? <==> 0 <= bufsize <= INT32_MAX - 24 && |payload| <= bufsize
    ensures r.Fail? ==> r == Fail(CapacityError)
    ensures r.Ok? ==>
      var bufsize := Mul32(Mul32(WordSize(kind), nSamples), nChans);
      r.value == DataFrame(order, Descriptor(nChans, nSamples, Tag(kind), bufsize), payload)
  {
    var bufsize := Mul32(Mul32(WordSize(kind), nSamples), nChans);
    var capacity := Wrap32(24 + bufsize);
    Capacity(24, bufsize);
    if capacity < 24 then
      Fail(CapacityError)
    else if |payload| > capacity - 24 then
      Fail(CapacityError)
    else
      Ok(DataFrame(order, Descriptor(nChans, nSamples, Tag(kind), bufsize), payload))
  }

  /** `putRawData`: nothing happens for an empty block; a payload whose
      length differs from nSamples*nChans*wordSize (32-bit product) records
      BUFFER_NOT_MATCH_DESCRIPTION_ERROR and throws before anything is
      written; otherwise the PUT_DAT frame is sent. */
  function PutRawData(c: Client, nSamples: int, nChans: int, dataType: int, data: seq<byte>): (r: Step<()>)
    requires IsInt32(nSamples) && IsInt32(nChans) && |data| <= INT32_MAX
    ensures nSamples == 0 || nChans == 0 ==> r == Step(c, Ok(()))
    ensures nSamples != 0 && nChans != 0 && KindOfTag(dataType).None? ==> r == Step(c, Fail(UnknownType))
    ensures r.result == Fail(NotMatchDescription) <==>
      && nSamples != 0 && nChans != 0 && KindOfTag(dataType).Some?
      && |data| != Mul32(Mul32(nSamples, nChans), WordSize(KindOfTag(dataType).value))
    ensures r.result == Fail(NotMatchDescription) ==>
      r.client == c.(lastError := BUFFER_NOT_MATCH_DESCRIPTION_ERROR)
    ensures |r.client.sent| != |c.sent| ==>
      && KindOfTag(dataType).Some?
      && PutDataFrame(c.order, nChans, nSamples, KindOfTag(dataType).value, data).Ok?
      && r.client.sent == c.sent + [PutDataFrame(c.order, nChans, nSamples, KindOfTag(dataType).value, data).value]
    ensures
      && nSamples != 0 && nChans != 0 && KindOfTag(dataType).Some?
      && |data| == Mul32(Mul32(nSamples, nChans), WordSize(KindOfTag(dataType).value))
      && PutDataFrame(c.order, nChans, nSamples, KindOfTag(dataType).value, data).Ok?
      && c.socket.Channel?
      ==> r.client.sent == c.sent + [PutDataFrame(c.order, nChans, nSamples, KindOfTag(dataType).value, data).value]
  {
    if nSamples == 0 || nChans == 0 then
      Step(c, Ok(()))
    else
      match KindOfTag(dataType)
      case None => Step(c, Fail(UnknownType))
      case Some(kind) =>
        if |data| != Mul32(Mul32(nSamples, nChans), WordSize(kind)) then
          Step(c.(lastError := BUFFER_NOT_MATCH_DESCRIPTION_ERROR), Fail(NotMatchDescription))
        else
          match PutDataFrame(c.order, nChans, nSamples, kind, data)
          case Fail(f) => Step(c, Fail(f))
          case Ok(frame) => Discard(Exchange(c, frame, PUT_OK))
  }

  /** A payload that passes the length check fills the frame exactly: the
      buffer sized by `preparePutData` is the payload's length, because both
      products wrap the same exact product. */
  lemma PutRawDataFrameExact(order: ByteOrder, nSamples: int, nChans: int, kind: DataType, data: seq<byte>)
    requires IsInt32(nSamples) && IsInt32(nChans) && |data| <= INT32_MAX - 24
    requires |data| == Mul32(Mul32(nSamples, nChans), WordSize(kind))
    ensures PutDataFrame(order, nChans, nSamples, kind, data).Ok?
    ensures PutDataFrame(order, nChans, nSamples, kind, data).value
         == DataFrame(order, Descriptor(nChans, nSamples, Tag(kind), |data|), data)
    ensures |PutDataFrame(order, nChans, nSamples, kind, data).value| == 24 + |data|
  {
    Mul32Rotate(WordSize(kind), nSamples, nChans);
  }

  /** The outcome of a `putRawData` that passes every check, for every
      complete reply: the frame is sent and the reply read; a foreign
      version throws and leaves the reply's body unread; otherwise the call
      completes and the reply's command only decides the recorded code. */
  lemma PutRawDataOnResponse(c: Client, nSamples: int, nChans: int, kind: DataType, data: seq<byte>,
                             version: int, command: int, body: seq<byte>, rest: seq<byte>)
    requires IsInt32(nSamples) && IsInt32(nChans) && nSamples != 0 && nChans != 0
    requires |data| <= INT32_MAX - 24 && |data| == Mul32(Mul32(nSamples, nChans), WordSize(kind))
    requires IsConnected(c) && IsInt16(version) && IsInt16(command) && |body| <= INT32_MAX
    requires c.incoming == Frame(c.order, version, command, body) + rest
    ensures var after := c.(sent := c.sent + [DataFrame(c.order, Descriptor(nChans, nSamples, Tag(kind), |data|), data)]);
      PutRawData(c, nSamples, nChans, Tag(kind), data) ==
        if version != VERSION then
          Step(after.(incoming := body + rest, lastError := VERSION_ERROR), Fail(BadVersion))
        else
          Step(after.(incoming := rest, lastError := if command == PUT_OK then NO_ERROR else BUFFER_READ_ERROR), Ok(()))
  {
    PutRawDataFrameExact(c.order, nSamples, nChans, kind, data);
    TagRoundTrip(kind, Tag(kind));
    var frame := DataFrame(c.order, Descriptor(nChans, nSamples, Tag(kind), |data|), data);
    ExchangeOnFrame(c, frame, PUT_OK, version, command, body, rest);
  }

  /** The frame a typed `putData` writes: the matrix's rows packed one
      after another under the overload's kind, in a buffer sized by 32-bit
      arithmetic; it exists exactly when the packed matrix fits. */
  function MatrixFrame(order: ByteOrder, s: Scalar, m: Matrix<int>): (r: Result<seq<byte>>)
    requires Typed(s, m) && m.rows <= INT32_MAX && m.cols <= INT32_MAX
    ensures |PackCells(order, ElementBytes(s), m.cells)| == |m.cells| * ElementBytes(s)
    ensures r.Ok? <==> |m.cells| * ElementBytes(s) <= INT32_MAX - 24
    ensures r.Fail? ==> r == Fail(CapacityError)
    ensures r.Ok? ==>
      r.value == DataFrame(order, Descriptor(m.cols, m.rows, Tag(KindOf(s)), |m.cells| * ElementBytes(s)),
                           PackCells(order, ElementBytes(s), m.cells))
  {
    var kind := KindOf(s);
    var ws := WordSize(kind);
    var payload := PackRows(order, ws, m, m.rows);
    PackedMatrix(order, ws, m);
    LemmaMulNonNegative(|m.cells|, ws);
    assert |payload| > INT32_MAX ==> Wrap32(|payload|) < |payload|;
    PutDataFrame(order, m.cols, m.rows, kind, payload)
  }

  /** `putData` for each element type: nothing happens for an empty matrix;
      otherwise the matrix's frame is written when it fits, and a matrix too
      large for the 32-bit buffer throws before anything is written. */
  function PutData(c: Client, s: Scalar, m: Matrix<int>): (r: Step<()>)
    requires Typed(s, m) && m.rows <= INT32_MAX && m.cols <= INT32_MAX
    ensures m.rows == 0 || m.cols == 0 ==> r == Step(c, Ok(()))
    ensures m.rows != 0 && m.cols != 0 && MatrixFrame(c.order, s, m).Fail? ==>
      r == Step(c, Fail(CapacityError))
    ensures m.rows != 0 && m.cols != 0 && MatrixFrame(c.order, s, m).Ok? && c.socket.Channel? ==>
      r.client.sent == c.sent + [MatrixFrame(c.order, s, m).value]
  {
    if m.rows == 0 || m.cols == 0 then Step(c, Ok(()))
    else
      match MatrixFrame(c.order, s, m)
      case Fail(f) => Step(c, Fail(f))
      case Ok(frame) => Discard(Exchange(c, frame, PUT_OK))
  }

  /** The typed `putData` writes what `putRawData` would write for the
      packed matrix, tagged with the overload's kind. */
  lemma PutDataIsPutRawData(c: Client, s: Scalar, m: Matrix<int>)
    requires Typed(s, m) && 0 < m.rows <= INT32_MAX && 0 < m.cols <= INT32_MAX
    requires |m.cells| * ElementBytes(s) <= INT32_MAX - 24
    ensures PutData(c, s, m) ==
      PutRawData(c, m.rows, m.cols, Tag(KindOf(s)), PackCells(c.order, ElementBytes(s), m.cells))
  {
    var kind := KindOf(s);
    var ws := WordSize(kind);
    TagRoundTrip(kind, Tag(kind));
    PackedMatrix(c.order, ws, m);
    Mul32Chain(m.rows, m.cols, ws);
  }

  /** The rows packed one after another are the row-major cells, and the
      32-bit buffer size wraps their length. */
  lemma PackedMatrix(order: ByteOrder, ws: nat, m: Matrix<int>)
    requires m.Valid()
    ensures PackRows(order, ws, m, m.rows) == PackCells(order, ws, m.cells)
    ensures |PackCells(order, ws, m.cells)| == |m.cells| * ws
    ensures Mul32(Mul32(ws, m.rows), m.cols) == Wrap32(|m.cells| * ws)
  {
    PackCellsLength(order, ws, m.cells);
    PackRowsRowMajor(order, ws, m, m.rows);
    assert m.cells[..m.rows * m.cols] == m.cells;
    Mul32Rotate(ws, m.rows, m.cols);
    Mul32Chain(m.rows, m.cols, ws);
  }

  /** The body of the frame a `putData` writes is Echo's descriptor
      followed by Echo's payload, and that descriptor passes the size rule. */
  lemma MatrixFrameBody(order: ByteOrder, s: Scalar, m: Matrix<int>)
    requires Typed(s, m) && m.rows <= INT32_MAX && m.cols <= INT32_MAX
    requires MatrixFrame(order, s, m).Ok?
    ensures var e := Echo(order, s, m);
      && DescriptorFits(e.descr) && e.descr.dataType == Tag(e.kind)
      && 16 + |e.payload| <= INT32_MAX
      && SizesAgree(e.descr, e.kind, |e.payload|)
      && MatrixFrame(order, s, m).value[8..] == EncodeDescriptor(order, e.descr) + e.payload
  {
    var e := Echo(order, s, m);
    EchoFits(order, s, m);
    DataFrameFull(order, e.descr, e.payload);
  }

  /** Echo of a matrix that fits a frame: its descriptor states the matrix's
      shape, kind and packed length, and passes the size rule. */
  lemma EchoFits(order: ByteOrder, s: Scalar, m: Matrix<int>)
    requires Typed(s, m) && m.rows <= INT32_MAX && m.cols <= INT32_MAX
    requires |m.cells| * ElementBytes(s) <= INT32_MAX - 24
    ensures var e := Echo(order, s, m);
      && e.descr == Descriptor(m.cols, m.rows, Tag(KindOf(s)), |m.cells| * ElementBytes(s))
      && e.payload == PackCells(order, ElementBytes(s), m.cells)
      && e.kind == KindOf(s)
      && DescriptorFits(e.descr)
      && SizesAgree(e.descr, e.kind, |e.payload|)
  {
    var ws := ElementBytes(s);
    EchoPayload(order, s, m);
    LemmaMulNonNegative(|m.cells|, ws);
    Mul32Chain(m.cols, m.rows, ws);
    assert m.cols * m.rows * ws == |m.cells| * ws;
  }

  /** A data frame whose block is exactly the payload ends in the
      descriptor followed by the payload. */
  lemma DataFrameFull(order: ByteOrder, d: Descriptor, payload: seq<byte>)
    requires DescriptorFits(d) && 0 <= d.sizeBytes <= INT32_MAX - 24 && |payload| == d.sizeBytes
    ensures DataFrame(order, d, payload)[8..] == EncodeDescriptor(order, d) + payload
  {
    var env := EncodeEnvelope(order, Envelope(VERSION, PUT_DAT, 16 + d.sizeBytes));
    assert payload + Zeros(0) == payload;
    DataLayout(env, EncodeDescriptor(order, d), payload);
  }

  /** A server that answers GET_DAT with the body of the frame a `putData`
      wrote hands the getters exactly Echo of the matrix. */
  lemma EchoedPut(c: Client, first: int, last: int, s: Scalar, m: Matrix<int>, rest: seq<byte>)
    requires IsInt32(first) && IsInt32(last) && IsConnected(c)
    requires Typed(s, m) && m.rows <= INT32_MAX && m.cols <= INT32_MAX
    requires MatrixFrame(c.order, s, m).Ok?
    requires c.incoming == Frame(c.order, VERSION, GET_OK, MatrixFrame(c.order, s, m).value[8..]) + rest
    ensures RequestData(c, first, last).result == Ok(Echo(c.order, s, m))
  {
    var e := Echo(c.order, s, m);
    MatrixFrameBody(c.order, s, m);
    TagRoundTrip(e.kind, e.descr.dataType);
    RequestDataOnResponse(c, first, last, VERSION, GET_OK, e.descr, e.payload, rest);
  }

  /** End to end, for an INT32 matrix: read back through `getIntData` it
      comes back as zeros, through `getLongData` unchanged. */
  lemma IntMatrixReadBack(c: Client, parse: seq<byte> -> Option<Header>, first: int, last: int,
                          m: Matrix<int>, rest: seq<byte>)
    requires IsInt32(first) && IsInt32(last) && IsConnected(c) && !NeedsHeader(c)
    requires Typed(CsInt, m) && m.rows <= INT32_MAX && m.cols <= INT32_MAX
    requires MatrixFrame(c.order, CsInt, m).Ok?
    requires c.incoming == Frame(c.order, VERSION, GET_OK, MatrixFrame(c.order, CsInt, m).value[8..]) + rest
    ensures GetIntData(c, parse, first, last).result == Ok(Filled(m.rows, m.cols, 0))
    ensures GetLongData(c, parse, first, last).result == Ok(m)
  {
    EchoedPut(c, first, last, CsInt, m, rest);
    ReadBackAfterPut(c.order, CsInt, m);
  }

  // ------------------------------------------------------------------
  // Flush

  /** The three flush requests: an empty request whose reply is read and
      whose body is ignored. */
  function Flush(c: Client, command: int): (r: Step<()>)
    requires command in {FLUSH_HDR, FLUSH_DAT, FLUSH_EVT}
    ensures c.socket.Channel? ==> r.client.sent == c.sent + [EmptyRequest(c.order, command)]
    ensures r.client.header == c.header
  {
    Discard(Exchange(c, EmptyRequest(c.order, command), FLUSH_OK))
  }

  /** `flushHeader`, `flushData` and `flushEvents`. */
  function FlushHeader(c: Client): (r: Step<()>)
    ensures c.socket.Channel? ==> r.client.sent == c.sent + [EmptyRequest(c.order, FLUSH_HDR)]
    ensures r.client.header == c.header
  {
    Flush(c, FLUSH_HDR)
  }

  function FlushData(c: Client): (r: Step<()>)
    ensures c.socket.Channel? ==> r.client.sent == c.sent + [EmptyRequest(c.order, FLUSH_DAT)]
    ensures r.client.header == c.header
  {
    Flush(c, FLUSH_DAT)
  }

  function FlushEvents(c: Client): (r: Step<()>)
    ensures c.socket.Channel? ==> r.client.sent == c.sent + [EmptyRequest(c.order, FLUSH_EVT)]
    ensures r.client.header == c.header
  {
    Flush(c, FLUSH_EVT)
  }

  /** A flush succeeds on any reply of the protocol's version; a foreign
      command is recorded as BUFFER_READ_ERROR, and a foreign version
      throws. */
  lemma FlushOnResponse(c: Client, command: int, version: int, reply: int, body: seq<byte>, rest: seq<byte>)
    requires command in {FLUSH_HDR, FLUSH_DAT, FLUSH_EVT}
    requires IsConnected(c) && IsInt16(version) && IsInt16(reply) && |body| <= INT32_MAX
    requires c.incoming == Frame(c.order, version, reply, body) + rest
    ensures version == VERSION ==>
      Flush(c, command).result == Ok(()) && Flush(c, command).client.incoming == rest
      && Flush(c, command).client.lastError == (if reply == FLUSH_OK then NO_ERROR else BUFFER_READ_ERROR)
    ensures version != VERSION ==> Flush(c, command).result == Fail(BadVersion)
  {
    ExchangeOnFrame(c, EmptyRequest(c.order, command), FLUSH_OK, version, reply, body, rest);
  }

  // ------------------------------------------------------------------
  // Typed getters: `getRawData`, then the conversion of Marshal.

  function GetShortData(c: Client, parse: seq<byte> -> Option<Header>, first: int, last: int): (r: Step<Matrix<int>>)
    requires IsInt32(first) && IsInt32(last)
    ensures var raw := GetRawData(c, parse, first, last);
      && r.client == raw.client
      && (raw.result.Fail? ==> r.result == Fail(raw.result.fault))
      && (raw.result.Ok? ==> IntGetterOutcome(AsShort, c.order, raw.result.value, r.result))
  {
    var raw := GetRawData(c, parse, first, last);
    match raw.result
    case Fail(f) => Step(raw.client, Fail(f))
    case Ok(data) => Step(raw.client, ShortData(c.order, data))
  }

  function GetIntData(c: Client, parse: seq<byte> -> Option<Header>, first: int, last: int): (r: Step<Matrix<int>>)
    requires IsInt32(first) && IsInt32(last)
    ensures var raw := GetRawData(c, parse, first, last);
      && r.client == raw.client
      && (raw.result.Fail? ==> r.result == Fail(raw.result.fault))
      && (raw.result.Ok? ==> IntGetterOutcome(AsInt, c.order, raw.result.value, r.result))
  {
    var raw := GetRawData(c, parse, first, last);
    match raw.result
    case Fail(f) => Step(raw.client, Fail(f))
    case Ok(data) => Step(raw.client, IntData(c.order, data))
  }

  function GetLongData(c: Client, parse: seq<byte> -> Option<Header>, first: int, last: int): (r: Step<Matrix<int>>)
    requires IsInt32(first) && IsInt32(last)
    ensures var raw := GetRawData(c, parse, first, last);
      && r.client == raw.client
      && (raw.result.Fail? ==> r.result == Fail(raw.result.fault))
      && (raw.result.Ok? ==> IntGetterOutcome(AsLong, c.order, raw.result.value, r.result))
  {
    var raw := GetRawData(c, parse, first, last);
    match raw.result
    case Fail(f) => Step(raw.client, Fail(f))
    case Ok(data) => Step(raw.client, LongData(c.order, data))
  }

  function GetFloatData(c: Client, parse: seq<byte> -> Option<Header>, first: int, last: int): (r: Step<Matrix<Real>>)
    requires IsInt32(first) && IsInt32(last)
    ensures var raw := GetRawData(c, parse, first, last);
      && r.client == raw.client
      && (raw.result.Fail? ==> r.result == Fail(raw.result.fault))
      && (raw.result.Ok? ==> RealGetterOutcome(AsFloat, raw.result.value, r.result))
  {
    var raw := GetRawData(c, parse, first, last);
    match raw.result
    case Fail(f) => Step(raw.client, Fail(f))
    case Ok(data) => Step(raw.client, FloatData(data))
  }

  function GetDoubleData(c: Client, parse: seq<byte> -> Option<Header>, first: int, last: int): (r: Step<Matrix<Real>>)
    requires IsInt32(first) && IsInt32(last)
    ensures var raw := GetRawData(c, parse, first, last);
      && r.client == raw.client
      && (raw.result.Fail? ==> r.result == Fail(raw.result.fault))
      && (raw.result.Ok? ==> RealGetterOutcome(AsDouble, raw.result.value, r.result))
  {
    var raw := GetRawData(c, parse, first, last);
    match raw.result
    case Fail(f) => Step(raw.client, Fail(f))
    case Ok(data) => Step(raw.client, DoubleData(data))
  }
}

=== FILE: marshal.dfy ===
/** Conversion between raw sample payloads and typed sample matrices: the
    matrix shape, the row copy taken by `getRow`, the five typed getters'
    dispatch on the stored kind, and the row-major packing of `putData`. */
module Marshal {
  import opened Bytes
  import opened Protocol

  /** A C# rectangular array T[rows, cols]; element [i, j] is cell i*cols + j. */
  datatype Matrix<T> = Matrix(rows: nat, cols: nat, cells: seq<T>)
  {
    predicate Valid()
    {
      |cells| == rows * cols
    }

    function At(i: nat, j: nat): T
      requires Valid() && i < rows && j < cols
    {
      LemmaCellIndex(i, j, rows, cols);
      cells[i * cols + j]
    }
  }

  lemma LemmaCellIndex(i: nat, j: nat, rows: nat, cols: nat)
    requires i < rows && j < cols
    ensures i * cols + j < rows * cols
    ensures (i + 1) * cols <= rows * cols
  {
    assert (i + 1) * cols <= rows * cols by {
      assert i + 1 <= rows;
    }
  }

  lemma LemmaMulSucc(n: nat, w: nat)
    ensures (n + 1) * w == n * w + w
  {
  }

  lemma LemmaMulMono(a: nat, b: nat, c: nat)
    requires a <= b
    ensures a * c <= b * c
  {
  }

  lemma LemmaMulNonNegative(a: nat, b: nat)
    ensures a * b >= 0
  {
  }

  /** A freshly allocated matrix: every element holds the default value. */
  function Filled<T>(rows: nat, cols: nat, z: T): (m: Matrix<T>)
    ensures m.Valid() && m.rows == rows && m.cols == cols
    ensures forall k :: 0 <= k < |m.cells| ==> m.cells[k] == z
  {
    Matrix(rows, cols, seq(rows * cols, _ => z))
  }

  /** `getRow`: a new array holding a copy of row `index` (GetRowAt says
      which elements). */
  function GetRow<T>(m: Matrix<T>, index: nat): (r: seq<T>)
    requires m.Valid() && index < m.rows
    ensures |r| == m.cols
  {
    if m.cols == 0 then []
    else
      LemmaCellIndex(index, 0, m.rows, m.cols);
      m.cells[index * m.cols .. (index + 1) * m.cols]
  }

  /** Element j of the copy is element [index, j] of the matrix. */
  lemma GetRowAt<T>(m: Matrix<T>, index: nat)
    requires m.Valid() && index < m.rows
    ensures forall j :: 0 <= j < m.cols ==> GetRow(m, index)[j] == m.At(index, j)
  {
    forall j | 0 <= j < m.cols
      ensures GetRow(m, index)[j] == m.At(index, j)
    {
      LemmaCellIndex(index, j, m.rows, m.cols);
    }
  }

  /** Element k sits at row k / cols, column k % cols. */
  lemma {:induction false} RowMajorPlacement<T>(m: Matrix<T>, k: nat)
    requires m.Valid() && k < |m.cells|
    ensures m.cols > 0 && k / m.cols < m.rows
    ensures m.At(k / m.cols, k % m.cols) == m.cells[k]
  {
    var i := k / m.cols;
    var j := k % m.cols;
    assert k == i * m.cols + j;
    if i >= m.rows {
      LemmaMulMono(m.rows, i, m.cols);
    }
  }

  /** The first `count` words of `ws` bytes each. */
  function Words(bytes: seq<byte>, ws: nat, count: nat): (r: seq<seq<byte>>)
    requires count * ws <= |bytes|
    ensures |r| == count
    ensures forall k :: 0 <= k < count ==> |r[k]| == ws
  {
    if count == 0 then []
    else [bytes[..ws]] + Words(bytes[ws..], ws, count - 1)
  }

  /** Word k of the sequence occupies bytes k*ws up to (k+1)*ws. */
  lemma {:induction false} WordAt(bytes: seq<byte>, ws: nat, count: nat, k: nat)
    requires count * ws <= |bytes| && k < count
    ensures (k + 1) * ws <= |bytes|
    ensures Words(bytes, ws, count)[k] == bytes[k * ws .. (k + 1) * ws]
  {
    LemmaMulMono(k + 1, count, ws);
    LemmaMulSucc(count - 1, ws);
    if k > 0 {
      var tail := bytes[ws..];
      WordAt(tail, ws, count - 1, k - 1);
      LemmaMulSucc(k - 1, ws);
      LemmaMulSucc(k, ws);
      assert tail[(k - 1) * ws .. k * ws] == bytes[k * ws .. (k + 1) * ws];
    }
  }

  /** The bytes of sample [i, j] in a payload holding rows*cols samples of ws bytes. */
  function SampleAt(payload: seq<byte>, ws: nat, rows: nat, cols: nat, i: nat, j: nat): (r: seq<byte>)
    requires rows * cols * ws <= |payload| && i < rows && j < cols
    ensures |r| == ws
  {
    var k := i * cols + j;
    LemmaCellIndex(i, j, rows, cols);
    LemmaMulMono(k + 1, rows * cols, ws);
    assert (k + 1) * ws == k * ws + ws;
    payload[k * ws .. (k + 1) * ws]
  }

  /** The value a floating-point matrix element takes: the default zero, or
      the requested floating type's conversion of one stored word (the
      numeric value of that conversion is not modelled). */
  datatype Real = Zero | Converted(from: DataType, word: seq<byte>)

  /** What `getRawData` hands to a getter: the validated descriptor, the
      stored kind it names, and every body byte after the descriptor. */
  datatype RawData = RawData(descr: Descriptor, kind: DataType, payload: seq<byte>)

  /** The five typed getters. */
  datatype Request = AsShort | AsInt | AsLong | AsFloat | AsDouble

  /** The stored kinds each getter converts from; every other kind throws. */
  predicate Accepts(req: Request, kind: DataType)
  {
    match req
    case AsShort => kind == INT8 || kind == INT16
    case AsInt => kind == INT8 || kind == INT16 || kind == INT32
    case AsLong => kind == INT8 || kind == INT16 || kind == INT32 || kind == INT64
    case AsFloat => kind != INT64
    case AsDouble => true
  }

  /** The pairs served by copying whole rows through `getRow` rather than
      element by element. */
  predicate CopiesRows(req: Request, kind: DataType)
  {
    || (req == AsShort && kind == INT16)
    || (req == AsInt && kind == INT32)
    || (req == AsLong && kind == INT64)
    || (req == AsDouble && kind == FLOAT64)
  }

  predicate NegativeDims(raw: RawData)
  {
    raw.descr.nSamples < 0 || raw.descr.nChans < 0
  }

  /** Bytes the getters read: one word per element of the nSamples x nChans matrix. */
  function Needed(raw: RawData): nat
    requires !NegativeDims(raw)
  {
    (raw.descr.nSamples as nat) * (raw.descr.nChans as nat) * WordSize(raw.kind)
  }

  /** An integer matrix read from `raw` for getter `req`: nSamples x nChans,
      element [i, j] the signed value of sample i*nChans + j, except that the
      row-copying pairs leave every element zero. */
  predicate IntDecoded(req: Request, order: ByteOrder, raw: RawData, m: Matrix<int>)
    requires !NegativeDims(raw) && Needed(raw) <= |raw.payload|
  {
    && m.Valid()
    && m.rows == raw.descr.nSamples && m.cols == raw.descr.nChans
    && forall i: nat, j: nat :: i < m.rows && j < m.cols ==>
         m.At(i, j) == (if CopiesRows(req, raw.kind) then 0
                        else Decode(order, SampleAt(raw.payload, WordSize(raw.kind), m.rows, m.cols, i, j)))
  }

  /** The floating-point counterpart of IntDecoded. */
  predicate RealDecoded(req: Request, raw: RawData, m: Matrix<Real>)
    requires !NegativeDims(raw) && Needed(raw) <= |raw.payload|
  {
    && m.Valid()
    && m.rows == raw.descr.nSamples && m.cols == raw.descr.nChans
    && forall i: nat, j: nat :: i < m.rows && j < m.cols ==>
         m.At(i, j) == (if CopiesRows(req, raw.kind) then Zero
                        else Converted(raw.kind, SampleAt(raw.payload, WordSize(raw.kind), m.rows, m.cols, i, j)))
  }

  /** The contract every integer getter keeps. */
  predicate IntGetterOutcome(req: Request, order: ByteOrder, raw: RawData, r: Result<Matrix<int>>)
  {
    if NegativeDims(raw) then r == Fail(NegativeDimension)
    else if !Accepts(req, raw.kind) then r == Fail(NotSupported)
    else if |raw.payload| < Needed(raw) then r == Fail(Underflow)
    else r.Ok? && IntDecoded(req, order, raw, r.value)
  }

  /** The contract every floating-point getter keeps. */
  predicate RealGetterOutcome(req: Request, raw: RawData, r: Result<Matrix<Real>>)
  {
    if NegativeDims(raw) then r == Fail(NegativeDimension)
    else if !Accepts(req, raw.kind) then r == Fail(NotSupported)
    else if |raw.payload| < Needed(raw) then r == Fail(Underflow)
    else r.Ok? && RealDecoded(req, raw, r.value)
  }

  /** The nested element loop: element k of the stream goes to [k / nChans, k % nChans]. */
  function IntElements(order: ByteOrder, raw: RawData): Result<Matrix<int>>
    requires !NegativeDims(raw)
  {
    var rows := raw.descr.nSamples as nat;
    var cols := raw.descr.nChans as nat;
    var ws := WordSize(raw.kind);
    if |raw.payload| < rows * cols * ws then Fail(Underflow)
    else
      var words := Words(raw.payload, ws, rows * cols);
      Ok(Matrix(rows, cols, seq(rows * cols, k requires 0 <= k < rows * cols => Decode(order, words[k]))))
  }

  function RealElements(raw: RawData): Result<Matrix<Real>>
    requires !NegativeDims(raw)
  {
    var rows := raw.descr.nSamples as nat;
    var cols := raw.descr.nChans as nat;
    var ws := WordSize(raw.kind);
    if |raw.payload| < rows * cols * ws then Fail(Underflow)
    else
      var words := Words(raw.payload, ws, rows * cols);
      Ok(Matrix(rows, cols, seq(rows * cols, k requires 0 <= k < rows * cols => Converted(raw.kind, words[k]))))
  }

  /** The row loop as written: each pass fills the copy `getRow` returned,
      never the matrix, so the matrix keeps its default elements; only the
      bulk reads can fail. */
  function CopiedRows<T>(raw: RawData, z: T): Result<Matrix<T>>
    requires !NegativeDims(raw)
  {
    var rows := raw.descr.nSamples as nat;
    var cols := raw.descr.nChans as nat;
    if |raw.payload| < rows * cols * WordSize(raw.kind) then Fail(Underflow)
    else Ok(Filled(rows, cols, z))
  }

  lemma IntElementsDecoded(req: Request, order: ByteOrder, raw: RawData)
    requires !NegativeDims(raw) && !CopiesRows(req, raw.kind)
    ensures IntElements(order, raw).Fail? <==> |raw.payload| < Needed(raw)
    ensures IntElements(order, raw).Fail? ==> IntElements(order, raw) == Fail(Underflow)
    ensures Needed(raw) <= |raw.payload| ==> IntDecoded(req, order, raw, IntElements(order, raw).value)
  {
    if |raw.payload| < Needed(raw) {
      return;
    }
    var m := IntElements(order, raw).value;
    var ws := WordSize(raw.kind);
    forall i: nat, j: nat | i < m.rows && j < m.cols
      ensures m.At(i, j) == Decode(order, SampleAt(raw.payload, ws, m.rows, m.cols, i, j))
    {
      LemmaCellIndex(i, j, m.rows, m.cols);
      WordAt(raw.payload, ws, m.rows * m.cols, i * m.cols + j);
    }
  }

  lemma RealElementsDecoded(req: Request, raw: RawData)
    requires !NegativeDims(raw) && !CopiesRows(req, raw.kind)
    ensures RealElements(raw).Fail? <==> |raw.payload| < Needed(raw)
    ensures RealElements(raw).Fail? ==> RealElements(raw) == Fail(Underflow)
    ensures Needed(raw) <= |raw.payload| ==> RealDecoded(req, raw, RealElements(raw).value)
  {
    if |raw.payload| < Needed(raw) {
      return;
    }
    var m := RealElements(raw).value;
    var ws := WordSize(raw.kind);
    forall i: nat, j: nat | i < m.rows && j < m.cols
      ensures m.At(i, j) == Converted(raw.kind, SampleAt(raw.payload, ws, m.rows, m.cols, i, j))
    {
      LemmaCellIndex(i, j, m.rows, m.cols);
      WordAt(raw.payload, ws, m.rows * m.cols, i * m.cols + j);
    }
  }

  lemma CopiedRowsIntDecoded(req: Request, order: ByteOrder, raw: RawData)
    requires !NegativeDims(raw) && CopiesRows(req, raw.kind)
    ensures CopiedRows(raw, 0).Fail? <==> |raw.payload| < Needed(raw)
    ensures CopiedRows(raw, 0).Fail? ==> CopiedRows(raw, 0) == Fail(Underflow)
    ensures Needed(raw) <= |raw.payload| ==> IntDecoded(req, order, raw, CopiedRows(raw, 0).value)
  {
    if Needed(raw) <= |raw.payload| {
      FilledAt(raw.descr.nSamples as nat, raw.descr.nChans as nat, 0);
    }
  }

  lemma CopiedRowsRealDecoded(req: Request, raw: RawData)
    requires !NegativeDims(raw) && CopiesRows(req, raw.kind)
    ensures CopiedRows(raw, Zero).Fail? <==> |raw.payload| < Needed(raw)
    ensures CopiedRows(raw, Zero).Fail? ==> CopiedRows(raw, Zero) == Fail(Underflow)
    ensures Needed(raw) <= |raw.payload| ==> RealDecoded(req, raw, CopiedRows(raw, Zero).value)
  {
    if Needed(raw) <= |raw.payload| {
      FilledAt(raw.descr.nSamples as nat, raw.descr.nChans as nat, Zero);
    }
  }

  lemma FilledAt<T>(rows: nat, cols: nat, z: T)
    ensures forall i: nat, j: nat :: i < rows && j < cols ==> Filled(rows, cols, z).At(i, j) == z
  {
    var m := Filled(rows, cols, z);
    forall i: nat, j: nat | i < rows && j < cols
      ensures m.At(i, j) == z
    {
      LemmaCellIndex(i, j, rows, cols);
    }
  }

  /** `getShortData`'s conversion: INT8 element-wise, INT16 by row copies. */
  function ShortData(order: ByteOrder, raw: RawData): (r: Result<Matrix<int>>)
    ensures IntGetterOutcome(AsShort, order, raw, r)
  {
    if NegativeDims(raw) then Fail(NegativeDimension)
    else
      match raw.kind
      case INT8 => IntElementsDecoded(AsShort, order, raw); IntElements(order, raw)
      case INT16 => CopiedRowsIntDecoded(AsShort, order, raw); CopiedRows(raw, 0)
      case _ => Fail(NotSupported)
  }

  /** `getIntData`'s conversion: INT8 and INT16 element-wise, INT32 by row copies. */
  function IntData(order: ByteOrder, raw: RawData): (r: Result<Matrix<int>>)
    ensures IntGetterOutcome(AsInt, order, raw, r)
  {
    if NegativeDims(raw) then Fail(NegativeDimension)
    else
      match raw.kind
      case INT8 => IntElementsDecoded(AsInt, order, raw); IntElements(order, raw)
      case INT16 => IntElementsDecoded(AsInt, order, raw); IntElements(order, raw)
      case INT32 => CopiedRowsIntDecoded(AsInt, order, raw); CopiedRows(raw, 0)
      case _ => Fail(NotSupported)
  }

  /** `getLongData`'s conversion: INT8 to INT32 element-wise, INT64 by row copies. */
  function LongData(order: ByteOrder, raw: RawData): (r: Result<Matrix<int>>)
    ensures IntGetterOutcome(AsLong, order, raw, r)
  {
    if NegativeDims(raw) then Fail(NegativeDimension)
    else
      match raw.kind
      case INT8 => IntElementsDecoded(AsLong, order, raw); IntElements(order, raw)
      case INT16 => IntElementsDecoded(AsLong, order, raw); IntElements(order, raw)
      case INT32 => IntElementsDecoded(AsLong, order, raw); IntElements(order, raw)
      case INT64 => CopiedRowsIntDecoded(AsLong, order, raw); CopiedRows(raw, 0)
      case _ => Fail(NotSupported)
  }

  /** `getFloatData`'s conversion: every accepted kind element-wise; INT64 throws. */
  function FloatData(raw: RawData): (r: Result<Matrix<Real>>)
    ensures RealGetterOutcome(AsFloat, raw, r)
  {
    if NegativeDims(raw) then Fail(NegativeDimension)
    else
      match raw.kind
      case INT8 => RealElementsDecoded(AsFloat, raw); RealElements(raw)
      case INT16 => RealElementsDecoded(AsFloat, raw); RealElements(raw)
      case INT32 => RealElementsDecoded(AsFloat, raw); RealElements(raw)
      case FLOAT32 => RealElementsDecoded(AsFloat, raw); RealElements(raw)
      case FLOAT64 => RealElementsDecoded(AsFloat, raw); RealElements(raw)
      case INT64 => Fail(NotSupported)
  }

  /** `getDoubleData`'s conversion: five kinds element-wise, FLOAT64 by row copies. */
  function DoubleData(raw: RawData): (r: Result<Matrix<Real>>)
    ensures RealGetterOutcome(AsDouble, raw, r)
  {
    if NegativeDims(raw) then Fail(NegativeDimension)
    else
      match raw.kind
      case INT8 => RealElementsDecoded(AsDouble, raw); RealElements(raw)
      case INT16 => RealElementsDecoded(AsDouble, raw); RealElements(raw)
      case INT32 => RealElementsDecoded(AsDouble, raw); RealElements(raw)
      case INT64 => RealElementsDecoded(AsDouble, raw); RealElements(raw)
      case FLOAT32 => RealElementsDecoded(AsDouble, raw); RealElements(raw)
      case FLOAT64 => CopiedRowsRealDecoded(AsDouble, raw); CopiedRows(raw, Zero)
  }

  /** The element type of a `putData` overload; float and double elements
      are given by their IEEE 754 bit patterns. */
  datatype Scalar = CsByte | CsShort | CsInt | CsLong | CsFloat | CsDouble

  /** The kind each `putData` overload tags its data with. */
  function KindOf(s: Scalar): (k: DataType)
    ensures WordSize(k) == ElementBytes(s)
  {
    match s
    case CsByte => INT8
    case CsShort => INT16
    case CsInt => INT32
    case CsLong => INT64
    case CsFloat => FLOAT32
    case CsDouble => FLOAT64
  }

  /** The size of one element of the overload's C# element type. */
  function ElementBytes(s: Scalar): nat
  {
    match s
    case CsByte => 1
    case CsShort => 2
    case CsInt => 4
    case CsLong => 8
    case CsFloat => 4
    case CsDouble => 8
  }

  /** The values of the overload's C# element type (C# `byte` is unsigned). */
  predicate Holds(s: Scalar, v: int)
  {
    match s
    case CsByte => 0 <= v < 256
    case CsShort => IsInt16(v)
    case CsInt => IsInt32(v)
    case CsLong => InRange(v, 8)
    case CsFloat => 0 <= v < TWO_32
    case CsDouble => 0 <= v < Pow256(8)
  }

  predicate Typed(s: Scalar, m: Matrix<int>)
  {
    m.Valid() && forall k :: 0 <= k < |m.cells| ==> Holds(s, m.cells[k])
  }

  /** Elements written one after another, each in ws bytes. */
  function PackCells(order: ByteOrder, ws: nat, cells: seq<int>): seq<byte>
  {
    if |cells| == 0 then [] else Encode(order, ws, cells[0]) + PackCells(order, ws, cells[1..])
  }

  lemma {:induction false} PackCellsLength(order: ByteOrder, ws: nat, cells: seq<int>)
    ensures |PackCells(order, ws, cells)| == |cells| * ws
  {
    if |cells| > 0 {
      var tail := cells[1..];
      PackCellsLength(order, ws, tail);
      assert PackCells(order, ws, cells) == Encode(order, ws, cells[0]) + PackCells(order, ws, tail);
      LemmaMulSucc(|tail|, ws);
    }
  }

  /** The `putData` loop: the copy of each row, in row order. */
  function PackRows(order: ByteOrder, ws: nat, m: Matrix<int>, n: nat): seq<byte>
    requires m.Valid() && n <= m.rows
  {
    if n == 0 then [] else PackRows(order, ws, m, n - 1) + PackCells(order, ws, GetRow(m, n - 1))
  }

  lemma {:induction false} PackCellsAppend(order: ByteOrder, ws: nat, a: seq<int>, b: seq<int>)
    ensures PackCells(order, ws, a + b) == PackCells(order, ws, a) + PackCells(order, ws, b)
  {
    if |a| == 0 {
      assert a + b == b;
    } else {
      assert (a + b)[0] == a[0];
      assert (a + b)[1..] == a[1..] + b;
      PackCellsAppend(order, ws, a[1..], b);
    }
  }

  /** Packing the rows one by one packs the matrix in row-major order. */
  lemma PackRowsRowMajor(order: ByteOrder, ws: nat, m: Matrix<int>, n: nat)
    requires m.Valid() && n <= m.rows
    ensures n * m.cols <= |m.cells|
    ensures PackRows(order, ws, m, n) == PackCells(order, ws, m.cells[..n * m.cols])
  {
    PackRowsEach(order, ws, m, n);
    RowsPrefixIsPrefix(m, n);
  }

  /** The first n rows of a matrix, copied one after another. */
  function RowsPrefix<T>(m: Matrix<T>, n: nat): seq<T>
    requires m.Valid() && n <= m.rows
  {
    if n == 0 then [] else RowsPrefix(m, n - 1) + GetRow(m, n - 1)
  }

  lemma {:induction false} PackRowsEach(order: ByteOrder, ws: nat, m: Matrix<int>, n: nat)
    requires m.Valid() && n <= m.rows
    ensures PackRows(order, ws, m, n) == PackCells(order, ws, RowsPrefix(m, n))
  {
    if n > 0 {
      PackRowsEach(order, ws, m, n - 1);
      PackCellsAppend(order, ws, RowsPrefix(m, n - 1), GetRow(m, n - 1));
    }
  }

  lemma {:induction false} RowsPrefixIsPrefix<T>(m: Matrix<T>, n: nat)
    requires m.Valid() && n <= m.rows
    ensures n * m.cols <= |m.cells|
    ensures RowsPrefix(m, n) == m.cells[..n * m.cols]
  {
    LemmaMulMono(n, m.rows, m.cols);
    if n > 0 {
      RowsPrefixIsPrefix(m, n - 1);
      RowPrefix(m, n);
    }
  }

  /** The first n rows are the first n - 1 rows followed by row n - 1. */
  lemma RowPrefix<T>(m: Matrix<T>, n: nat)
    requires m.Valid() && 0 < n <= m.rows
    ensures n * m.cols <= |m.cells|
    ensures m.cells[..n * m.cols] == m.cells[..(n - 1) * m.cols] + GetRow(m, n - 1)
  {
    LemmaMulMono(n, m.rows, m.cols);
    var lo := (n - 1) * m.cols;
    var hi := n * m.cols;
    assert hi == lo + m.cols;
    if m.cols > 0 {
      assert GetRow(m, n - 1) == m.cells[lo..hi];
    }
    assert m.cells[..hi] == m.cells[..lo] + m.cells[lo..hi];
  }

  /** Word k of a packed sequence is the encoding of element k. */
  lemma {:induction false} PackedWords(order: ByteOrder, ws: nat, cells: seq<int>, k: nat)
    requires k < |cells|
    ensures |PackCells(order, ws, cells)| == |cells| * ws
    ensures Words(PackCells(order, ws, cells), ws, |cells|)[k] == Encode(order, ws, cells[k])
  {
    PackCellsLength(order, ws, cells);
    var p := PackCells(order, ws, cells);
    assert p[..ws] == Encode(order, ws, cells[0]);
    assert p[ws..] == PackCells(order, ws, cells[1..]);
    if k > 0 {
      PackedWords(order, ws, cells[1..], k - 1);
    }
  }

  /** What a GET hands the getters when the server returns exactly what a
      `putData` of matrix m sent: its descriptor and its packed rows. */
  function Echo(order: ByteOrder, s: Scalar, m: Matrix<int>): (raw: RawData)
    requires Typed(s, m)
  {
    var ws := WordSize(KindOf(s));
    var payload := PackRows(order, ws, m, m.rows);
    RawData(Descriptor(m.cols, m.rows, Tag(KindOf(s)), |payload|), KindOf(s), payload)
  }

  /** Echo's payload is the matrix's cells packed in row-major order. */
  lemma EchoPayload(order: ByteOrder, s: Scalar, m: Matrix<int>)
    requires Typed(s, m)
    ensures Echo(order, s, m).payload == PackCells(order, ElementBytes(s), m.cells)
    ensures |Echo(order, s, m).payload| == |m.cells| * ElementBytes(s)
  {
    var ws := ElementBytes(s);
    PackRowsRowMajor(order, ws, m, m.rows);
    assert m.cells[..m.rows * m.cols] == m.cells;
    PackCellsLength(order, ws, m.cells);
  }

  /** Reading a packed matrix back element by element yields each element
      as its own kind stores it, wrapped to the element's width. */
  lemma ElementWiseRoundTrip(order: ByteOrder, s: Scalar, m: Matrix<int>)
    requires Typed(s, m) && (s == CsByte || s == CsShort || s == CsInt || s == CsLong)
    ensures IntElements(order, Echo(order, s, m)).Ok?
    ensures var r := IntElements(order, Echo(order, s, m)).value;
      r.rows == m.rows && r.cols == m.cols && |r.cells| == |m.cells|
      && forall k :: 0 <= k < |m.cells| ==> r.cells[k] == Wrap(m.cells[k], ElementBytes(s))
  {
    var ws := ElementBytes(s);
    var raw := Echo(order, s, m);
    EchoPayload(order, s, m);
    var r := IntElements(order, raw).value;
    forall k | 0 <= k < |m.cells|
      ensures r.cells[k] == Wrap(m.cells[k], ws)
    {
      PackedWords(order, ws, m.cells, k);
      DecodeEncode(order, ws, m.cells[k]);
    }
  }

  /** Every element fits its own kind, except that unsigned C# bytes above
      127 come back negative from the signed INT8 kind: so for the other
      integer kinds the matrix comes back unchanged. */
  lemma ElementWiseExact(order: ByteOrder, s: Scalar, m: Matrix<int>)
    requires Typed(s, m) && (s == CsShort || s == CsInt || s == CsLong)
    ensures IntElements(order, Echo(order, s, m)) == Ok(m)
  {
    ElementWiseRoundTrip(order, s, m);
    var r := IntElements(order, Echo(order, s, m)).value;
    forall k | 0 <= k < |m.cells|
      ensures r.cells[k] == m.cells[k]
    {
      assert Half(2) == 0x8000 && Half(4) == 0x8000_0000;
      LemmaWrapInRange(m.cells[k], ElementBytes(s));
    }
    assert r.cells == m.cells;
  }

  /** The signed INT8 kind turns an unsigned C# byte of 200 into -56. */
  lemma ByteReadBackSigned(order: ByteOrder)
    ensures IntElements(order, Echo(order, CsByte, Matrix(1, 1, [200]))) == Ok(Matrix(1, 1, [-56]))
  {
    var m := Matrix(1, 1, [200]);
    ElementWiseRoundTrip(order, CsByte, m);
    var r := IntElements(order, Echo(order, CsByte, m)).value;
    assert r.cells[0] == Wrap(200, 1) == -56;
    assert r.cells == [-56];
  }

  /** The typed getters on a matrix `putData` sent: a wider integer getter
      returns it, the getter of the matrix's own kind returns zeros (its row
      copies are never stored), and a narrower one throws. */
  lemma ReadBackAfterPut(order: ByteOrder, s: Scalar, m: Matrix<int>)
    requires Typed(s, m) && (s == CsShort || s == CsInt || s == CsLong)
    ensures s == CsShort ==>
      && ShortData(order, Echo(order, s, m)) == Ok(Filled(m.rows, m.cols, 0))
      && IntData(order, Echo(order, s, m)) == Ok(m)
      && LongData(order, Echo(order, s, m)) == Ok(m)
    ensures s == CsInt ==>
      && ShortData(order, Echo(order, s, m)) == Fail(NotSupported)
      && IntData(order, Echo(order, s, m)) == Ok(Filled(m.rows, m.cols, 0))
      && LongData(order, Echo(order, s, m)) == Ok(m)
    ensures s == CsLong ==>
      && ShortData(order, Echo(order, s, m)) == Fail(NotSupported)
      && IntData(order, Echo(order, s, m)) == Fail(NotSupported)
      && LongData(order, Echo(order, s, m)) == Ok(Filled(m.rows, m.cols, 0))
  {
    ElementWiseExact(order, s, m);
  }

  /** The smallest witness that a same-kind read loses the data: one INT32
      sample of value 7 is read back by `getIntData` as 0. */
  lemma RowCopyLosesData(order: ByteOrder)
    ensures var m := Matrix(1, 1, [7]);
      IntData(order, Echo(order, CsInt, m)) == Ok(Matrix(1, 1, [0]))
      && IntData(order, Echo(order, CsInt, m)) != Ok(m)
  {
    var m := Matrix(1, 1, [7]);
    ReadBackAfterPut(order, CsInt, m);
    assert Filled(1, 1, 0).cells == [0];
  }

  /** The row loop as evidently intended: each row read from the stream is
      stored back into row n of the matrix. It agrees with the element-wise
      reading, so a same-kind read would return what was written. */
  method FillRowsIntended(order: ByteOrder, raw: RawData) returns (r: Result<Matrix<int>>)
    requires !NegativeDims(raw)
    ensures r == IntElements(order, raw)
  {
    var rows := raw.descr.nSamples as nat;
    var cols := raw.descr.nChans as nat;
    var ws := WordSize(raw.kind);
    if |raw.payload| < rows * cols * ws {
      return Fail(Underflow);
    }
    var words := Words(raw.payload, ws, rows * cols);
    var stream := seq(rows * cols, k requires 0 <= k < rows * cols => Decode(order, words[k]));
    var cells: seq<int> := seq(rows * cols, _ => 0);
    var n := 0;
    while n < rows
      invariant 0 <= n <= rows
      invariant |cells| == rows * cols
      invariant cells[..n * cols] == stream[..n * cols]
    {
      LemmaMulMono(n + 1, rows, cols);
      var lo := n * cols;
      var hi := (n + 1) * cols;
      assert hi == lo + cols;
      var row := stream[lo..hi];
      cells := cells[..lo] + row + cells[hi..];
      assert cells[..hi] == stream[..lo] + row;
      n := n + 1;
    }
    assert cells == cells[..rows * cols];
    assert stream == stream[..rows * cols];
    assert IntElements(order, raw) == Ok(Matrix(rows, cols, stream));
    return Ok(Matrix(rows, cols, cells));
  }
}

=== FILE: protocol.dfy ===
/** The buffer-server wire protocol: protocol constants, the scalar kinds,
    the 8-byte envelope that starts every request and response, the data
    descriptor, and reading one response off the incoming stream. */
module Protocol {
  import opened Bytes

  const VERSION := 1

  const GET_HDR := 0x201
  const GET_DAT := 0x202
  const GET_EVT := 0x203
  const GET_OK := 0x204
  const GET_ERR := 0x205

  const PUT_HDR := 0x101
  const PUT_DAT := 0x102
  const PUT_EVT := 0x103
  const PUT_OK := 0x104
  const PUT_ERR := 0x105

  const FLUSH_HDR := 0x301
  const FLUSH_DAT := 0x302
  const FLUSH_EVT := 0x303
  const FLUSH_OK := 0x304
  const FLUSH_ERR := 0x305

  const WAIT_DAT := 0x402
  const WAIT_OK := 0x404
  const WAIT_ERR := 0x405

  /** Codes the client records in its last-error field. */
  const NO_ERROR := 0x505
  const BUFFER_READ_ERROR := 0x506
  const VERSION_ERROR := 0x507
  const BUFFER_NOT_MATCH_DESCRIPTION_ERROR := 0x508
  const INVALID_EVENT_DEF_ERROR := 0x509
  const INVALID_SIZE_DATA_DEF_ERROR := 0x510

  datatype Option<T> = None | Some(value: T)

  /** The exceptions an operation can end with. */
  datatype Fault =
    | ReadFailed           // nothing arrived where a response envelope was due
    | BadVersion           // the response carried another protocol version
    | InvalidSize          // a GET_DAT descriptor whose sizes do not add up
    | NotMatchDescription  // a PUT_DAT payload of the wrong length
    | NotSupported         // a stored kind the requested matrix kind does not accept
    | UnknownType          // a data-type tag outside the word-size table
    | Underflow            // a read past the end of a received body
    | NegativeDimension    // a matrix allocated with a negative dimension
    | CapacityError        // a buffer of negative or insufficient capacity
    | MalformedHeader      // a GET_HDR body the header parser rejects
    | NoSocket             // a socket used or closed before any connect

  datatype Result<T> = Ok(value: T) | Fail(fault: Fault)

  /** The six scalar kinds of sample data. */
  datatype DataType = INT8 | INT16 | INT32 | INT64 | FLOAT32 | FLOAT64

  /** Bytes per sample. */
  function WordSize(t: DataType): (r: nat)
    ensures r in {1, 2, 4, 8}
  {
    match t
    case INT8 => 1
    case INT16 => 2
    case INT32 => 4
    case INT64 => 8
    case FLOAT32 => 4
    case FLOAT64 => 8
  }

  /** The integer that stands for a kind on the wire (its index in the word-size table). */
  function Tag(t: DataType): int
  {
    match t
    case INT8 => 0
    case INT16 => 1
    case INT32 => 2
    case INT64 => 3
    case FLOAT32 => 4
    case FLOAT64 => 5
  }

  /** Looking a wire tag up in the word-size table; outside it the lookup throws. */
  function KindOfTag(tag: int): (r: Option<DataType>)
    ensures r.Some? <==> 0 <= tag < 6
  {
    if tag == 0 then Some(INT8)
    else if tag == 1 then Some(INT16)
    else if tag == 2 then Some(INT32)
    else if tag == 3 then Some(INT64)
    else if tag == 4 then Some(FLOAT32)
    else if tag == 5 then Some(FLOAT64)
    else None
  }

  /** Tags and kinds are in one-to-one correspondence. */
  lemma TagRoundTrip(t: DataType, tag: int)
    ensures KindOfTag(Tag(t)) == Some(t)
    ensures KindOfTag(tag).Some? ==> Tag(KindOfTag(tag).value) == tag
  {
  }

  /** The first 8 bytes of every frame. */
  datatype Envelope = Envelope(version: int, command: int, size: int)

  predicate WellFormed(e: Envelope)
  {
    IsInt16(e.version) && IsInt16(e.command) && IsInt32(e.size)
  }

  function DecodeEnvelope(order: ByteOrder, h: seq<byte>): (e: Envelope)
    requires |h| == 8
    ensures WellFormed(e)
  {
    assert Half(2) == 0x8000 && Half(4) == 0x8000_0000;
    Envelope(Decode(order, h[0..2]), Decode(order, h[2..4]), Decode(order, h[4..8]))
  }

  /** putShort(version), putShort(command), putInt(size). */
  function EncodeEnvelope(order: ByteOrder, e: Envelope): (r: seq<byte>)
    requires WellFormed(e)
    ensures |r| == 8
    ensures DecodeEnvelope(order, r) == e
  {
    var r := Encode(order, 2, e.version) + Encode(order, 2, e.command) + Encode(order, 4, e.size);
    assert r[0..2] == Encode(order, 2, e.version);
    assert r[2..4] == Encode(order, 2, e.command);
    assert r[4..8] == Encode(order, 4, e.size);
    RoundTrip16(order, e.version);
    RoundTrip16(order, e.command);
    RoundTrip32(order, e.size);
    r
  }

  /** A request whose body is empty: GET_HDR and the three FLUSH requests. */
  function EmptyRequest(order: ByteOrder, command: int): (r: seq<byte>)
    requires IsInt16(command)
    ensures |r| == 8
    ensures DecodeEnvelope(order, r) == Envelope(VERSION, command, 0)
  {
    EncodeEnvelope(order, Envelope(VERSION, command, 0))
  }

  /** The GET_DAT request for the inclusive sample window [first, last]. */
  function GetDataRequest(order: ByteOrder, first: int, last: int): (r: seq<byte>)
    requires IsInt32(first) && IsInt32(last)
    ensures |r| == 16
    ensures DecodeEnvelope(order, r[..8]) == Envelope(VERSION, GET_DAT, 8)
    ensures Decode(order, r[8..12]) == first && Decode(order, r[12..16]) == last
  {
    var r := EncodeEnvelope(order, Envelope(VERSION, GET_DAT, 8)) + Encode(order, 4, first) + Encode(order, 4, last);
    assert r[..8] == EncodeEnvelope(order, Envelope(VERSION, GET_DAT, 8));
    assert r[8..12] == Encode(order, 4, first);
    assert r[12..16] == Encode(order, 4, last);
    RoundTrip32(order, first);
    RoundTrip32(order, last);
    r
  }

  /** The four ints that precede raw sample bytes, in both directions. */
  datatype Descriptor = Descriptor(nChans: int, nSamples: int, dataType: int, sizeBytes: int)

  predicate DescriptorFits(d: Descriptor)
  {
    IsInt32(d.nChans) && IsInt32(d.nSamples) && IsInt32(d.dataType) && IsInt32(d.sizeBytes)
  }

  function DecodeDescriptor(order: ByteOrder, body: seq<byte>): (d: Descriptor)
    requires |body| >= 16
    ensures DescriptorFits(d)
  {
    assert Half(4) == 0x8000_0000;
    Descriptor(Decode(order, body[0..4]), Decode(order, body[4..8]),
               Decode(order, body[8..12]), Decode(order, body[12..16]))
  }

  function EncodeDescriptor(order: ByteOrder, d: Descriptor): (r: seq<byte>)
    requires DescriptorFits(d)
    ensures |r| == 16
  {
    Encode(order, 4, d.nChans) + Encode(order, 4, d.nSamples)
      + Encode(order, 4, d.dataType) + Encode(order, 4, d.sizeBytes)
  }

  /** A descriptor read from the front of a body is the one written there,
      whatever follows it. */
  lemma DescriptorRoundTrip(order: ByteOrder, d: Descriptor, rest: seq<byte>)
    requires DescriptorFits(d)
    ensures DecodeDescriptor(order, EncodeDescriptor(order, d) + rest) == d
  {
    var b := EncodeDescriptor(order, d) + rest;
    assert b[0..4] == Encode(order, 4, d.nChans);
    assert b[4..8] == Encode(order, 4, d.nSamples);
    assert b[8..12] == Encode(order, 4, d.dataType);
    assert b[12..16] == Encode(order, 4, d.sizeBytes);
    RoundTrip32(order, d.nChans);
    RoundTrip32(order, d.nSamples);
    RoundTrip32(order, d.dataType);
    RoundTrip32(order, d.sizeBytes);
  }

  /** What one blocking read of n bytes leaves behind: a zero-filled n-byte
      buffer holding whatever arrived before the stream ran dry. */
  datatype Received = Received(buf: seq<byte>, got: nat, rest: seq<byte>)

  function ReadAll(input: seq<byte>, n: nat): (r: Received)
    ensures |r.buf| == n && r.got <= n && r.got <= |input|
    ensures r.got == n || r.got == |input|
    ensures r.buf == input[..r.got] + Zeros(n - r.got)
    ensures r.rest == input[r.got..]
  {
    var k := if n <= |input| then n else |input|;
    Received(input[..k] + Zeros(n - k), k, input[k..])
  }

  /** The outcome of reading one response: the error code recorded on the
      client, the body or the exception raised, and the unread input. */
  datatype Response = Response(code: int, body: Result<seq<byte>>, rest: seq<byte>)

  /** Reads one response frame and checks it against the expected command. */
  function ReadResponse(order: ByteOrder, expected: int, input: seq<byte>): (r: Response)
    ensures r.code in {NO_ERROR, BUFFER_READ_ERROR, VERSION_ERROR}
    ensures r.body.Fail? ==> r.body.fault in {ReadFailed, BadVersion, CapacityError}
    ensures |input| == 0 ==> r == Response(BUFFER_READ_ERROR, Fail(ReadFailed), [])
    ensures r.body.Ok? ==> r.code != VERSION_ERROR
    ensures |r.rest| <= |input| && r.rest == input[|input| - |r.rest|..]
    ensures r.body.Ok? ==> |input| - |r.rest| <= 8 + |r.body.value|
  {
    var head := ReadAll(input, 8);
    if head.got == 0 then
      Response(BUFFER_READ_ERROR, Fail(ReadFailed), head.rest)
    else
      Answer(expected, DecodeEnvelope(order, head.buf), head.rest)
  }

  /** What follows a received envelope: the version check, the command
      check that only records its verdict, and the read of the body. */
  function Answer(expected: int, e: Envelope, rest: seq<byte>): (r: Response)
    ensures r.code in {NO_ERROR, BUFFER_READ_ERROR, VERSION_ERROR}
    ensures r.body.Fail? ==> r.body.fault in {BadVersion, CapacityError}
    ensures r.body.Ok? ==> r.code != VERSION_ERROR
    ensures |r.rest| <= |rest| && r.rest == rest[|rest| - |r.rest|..]
    ensures r.body.Ok? ==> |rest| - |r.rest| <= |r.body.value|
    ensures e.version != VERSION <==> r.body == Fail(BadVersion)
    ensures e.version != VERSION ==> r == Response(VERSION_ERROR, Fail(BadVersion), rest)
    ensures e.version == VERSION ==> r.code == (if e.command == expected then NO_ERROR else BUFFER_READ_ERROR)
    ensures e.version == VERSION && e.size >= 0 ==> r.body == Ok(ReadAll(rest, e.size).buf)
    ensures e.version == VERSION && e.size < 0 ==> r.body == Fail(CapacityError) && r.rest == rest
  {
    if e.version != VERSION then
      Response(VERSION_ERROR, Fail(BadVersion), rest)
    else
      var code := if e.command != expected then BUFFER_READ_ERROR else NO_ERROR;
      if e.size < 0 then
        Response(code, Fail(CapacityError), rest)
      else
        var b := ReadAll(rest, e.size);
        Response(code, Ok(b.buf), b.rest)
  }

  /** A complete envelope at the front of the input is read whole. */
  lemma ReadEnvelope(order: ByteOrder, expected: int, e: Envelope, tail: seq<byte>)
    requires WellFormed(e)
    ensures ReadResponse(order, expected, EncodeEnvelope(order, e) + tail) == Answer(expected, e, tail)
  {
    var env := EncodeEnvelope(order, e);
    var head := ReadAll(env + tail, 8);
    assert (env + tail)[..8] == env;
    assert head.buf == env;
    assert head.rest == tail;
  }

  /** A whole frame as the server sends it. */
  function Frame(order: ByteOrder, version: int, command: int, body: seq<byte>): (r: seq<byte>)
    requires IsInt16(version) && IsInt16(command) && |body| <= INT32_MAX
    ensures |r| == 8 + |body|
  {
    EncodeEnvelope(order, Envelope(version, command, |body|)) + body
  }

  /** The three-way outcome of a complete response frame, stated directly:
      a foreign version aborts after the envelope, leaving the body unread;
      otherwise the whole declared body is returned and only the recorded
      code tells whether the command was the expected one. */
  function FrameResponse(expected: int, version: int, command: int, body: seq<byte>, rest: seq<byte>): Response
  {
    if version != VERSION then Response(VERSION_ERROR, Fail(BadVersion), body + rest)
    else if command != expected then Response(BUFFER_READ_ERROR, Ok(body), rest)
    else Response(NO_ERROR, Ok(body), rest)
  }

  /** Reading a complete frame behaves as FrameResponse says. */
  lemma ReadResponseOfFrame(order: ByteOrder, expected: int, version: int, command: int,
                            body: seq<byte>, rest: seq<byte>)
    requires IsInt16(version) && IsInt16(command) && |body| <= INT32_MAX
    ensures ReadResponse(order, expected, Frame(order, version, command, body) + rest)
         == FrameResponse(expected, version, command, body, rest)
  {
    var e := Envelope(version, command, |body|);
    assert Frame(order, version, command, body) + rest == EncodeEnvelope(order, e) + (body + rest);
    ReadEnvelope(order, expected, e, body + rest);
    ReadAllWhole(body, rest);
  }

  /** A read of exactly the bytes of `body` takes them and leaves the rest. */
  lemma ReadAllWhole(body: seq<byte>, rest: seq<byte>)
    ensures ReadAll(body + rest, |body|) == Received(body, |body|, rest)
  {
    assert (body + rest)[..|body|] == body;
    assert (body + rest)[|body|..] == rest;
  }

  /** A read of more bytes than remain takes them all and zero-fills the rest. */
  lemma ReadAllShort(input: seq<byte>, n: nat)
    requires |input| < n
    ensures ReadAll(input, n) == Received(input + Zeros(n - |input|), |input|, [])
  {
    assert input[..|input|] == input;
  }

  /** A body cut short by the server is zero-filled up to the declared size. */
  lemma ReadResponseShortBody(order: ByteOrder, expected: int, command: int,
                              size: int, partial: seq<byte>)
    requires IsInt16(command) && IsInt32(size) && |partial| < size
    ensures ReadResponse(order, expected, EncodeEnvelope(order, Envelope(VERSION, command, size)) + partial)
         == Response(if command == expected then NO_ERROR else BUFFER_READ_ERROR,
                     Ok(partial + Zeros(size - |partial|)), [])
  {
    var e := Envelope(VERSION, command, size);
    ReadEnvelope(order, expected, e, partial);
    ReadAllShort(partial, size);
  }
}
